=== FILE: README.md ===
# Public-suffix matcher

A Dafny model of the public-suffix helper of the browser (`PublicSuffix.java`). The helper
answers three questions about a host name, following the plain, exception (`!`) and wildcard
(`*.`) rules of the Public Suffix List:

- where the public suffix starts (`findPublicSuffixIndex`, modelled as
  `PublicSuffix.FindPublicSuffixIndex`): the offset `joinIndex` gives for the label where the
  suffix starts, or -1. That offset is the '.' in front of that label when the label is neither
  the first label nor past the last; for the first label it is the end of that label, and past
  the last label it is the end of the name;
- what is left once the suffix is cut off (`stripPublicSuffix`, `PublicSuffix.StripPublicSuffix`);
- what the suffix is with a number of extra labels in front (`getPublicSuffix`,
  `PublicSuffix.GetPublicSuffix`).

These rest on three helpers, all modelled:

- `normalizeAndSplit` (`PublicSuffix.NormalizeAndSplit`) maps the dot-like characters to '.',
  lowercases the name, drops one trailing '.' and splits the name into labels.
- `joinIndex` (`PublicSuffix.JoinIndex`) turns a label index into a character offset.
- `matchesWildcardPublicSuffix` (`PublicSuffix.MatchesWildcard`) checks a name against the
  wildcard rules.

The Java string and list operations involved are in module `Strings`:

- `String.split("\\.")`, which drops trailing empty pieces and returns a string without '.' whole.
- `String.split("\\.", 2)`.
- `indexOf`, which finds the first occurrence.
- `TextUtils.join`.

The three rule sets are a parameter (`PublicSuffix.Rules`): `exact` holds the plain rules,
`excluded` holds the exception rules without their '!', and `under` holds the wildcard rules
without their `*.`.

The model follows the code as written. Several consequences are kept:

- `joinIndex(parts, 0)` is the length of the first label, so a name that is all suffix
  ("co.uk" under the plain rule "co.uk") is stripped to its first label ("co").
- Offsets computed on the normalised name are applied to the name as given. In the model
  this is sound, because dot replacement and ASCII lowercasing keep every character in place
  and normalisation at most drops the last one. Java's Unicode lowercasing does not always
  keep the length (see Left out).
- `getPublicSuffix` turns the offset back into a label position by looking the suffix's
  first label, taken from the name as given, up among the normalised labels.

The last step loses information in several ways, listed under Findings. Module
`PublicSuffixCorrected` gives a version that keeps the label position the search found.
Module `PublicSuffixFindings` proves the documented properties of that version. Of the six
discrepancies of the version as written, it states four as general lemmas; the upper-case and
dot-like ones are shown on concrete inputs only, in module `PublicSuffixCounterexamples`, which
also works through a concrete input for each of the other four. Module `PublicSuffixExamples` proves the worked examples of the
documentation.

## Model

| member | source | states |
|---|---|---|
| Strings.SplitSpec | app/src/main/java/org/mozilla/focus/utils/publicsuffix/PublicSuffix.java:139-140 | split on '.': no piece holds a '.', the pieces joined are a prefix of the input and everything after that prefix is '.', a string without '.' comes back as the one piece, and otherwise no trailing empty piece is kept |
| Strings.SplitJoin | app/src/main/java/org/mozilla/focus/utils/publicsuffix/PublicSuffix.java:139-140 | splitting the join of labels without '.', whose last label is not empty, gives the labels back |
| Strings.SplitOnce | app/src/main/java/org/mozilla/focus/utils/publicsuffix/PublicSuffix.java:163 | split with limit 2: two pieces exactly when there is a '.', the first without '.', and the pieces with a '.' between give the input back |
| Strings.IndexOfSpec | app/src/main/java/org/mozilla/focus/utils/publicsuffix/PublicSuffix.java:88-92 | -1 exactly when the element is absent; otherwise a position holding it with no occurrence in front |
| Strings.IndexOfUnique | app/src/main/java/org/mozilla/focus/utils/publicsuffix/PublicSuffix.java:92 | a position holding the element with none in front of it is the one indexOf returns |
| PublicSuffix.CanonicalAt | app/src/main/java/org/mozilla/focus/utils/publicsuffix/PublicSuffix.java:131-132 | dot replacement and lowercasing rewrite each character in place: character k of the result is the rewritten character k |
| PublicSuffix.NormalizeSpec | app/src/main/java/org/mozilla/focus/utils/publicsuffix/PublicSuffix.java:134-136 | normalising removes exactly one '.' from the end of the rewritten name when it ends in '.', and otherwise keeps the rewritten name |
| PublicSuffix.NormalizedLabels | app/src/main/java/org/mozilla/focus/utils/publicsuffix/PublicSuffix.java:130-142 | no label holds '.', U+3002, U+FF0E or U+FF61, and no label holds an upper-case letter |
| PublicSuffix.NormalizeAndSplitPrefix | app/src/main/java/org/mozilla/focus/utils/publicsuffix/PublicSuffix.java:130-142 | the labels joined are a prefix of the normalised name and of the rewritten name, and never longer than the name as given |
| PublicSuffix.NormalizeAndSplitJoin | app/src/main/java/org/mozilla/focus/utils/publicsuffix/PublicSuffix.java:130-142 | for labels already in normal form, normalising and splitting their join gives them back |
| PublicSuffix.JoinIndexLength | app/src/main/java/org/mozilla/focus/utils/publicsuffix/PublicSuffix.java:149-157 | the offset is the length of the first max(1, index) labels joined, so index 0 gives the length of the first label |
| PublicSuffix.JoinIndexLocatesSuffix | app/src/main/java/org/mozilla/focus/utils/publicsuffix/PublicSuffix.java:147-157 | for 1 <= k < number of labels, the joined name holds '.' at the offset and the labels from k on after it; for k = number of labels the offset is the joined length |
| PublicSuffix.JoinIndexBound | app/src/main/java/org/mozilla/focus/utils/publicsuffix/PublicSuffix.java:149-157 | the offset lies within the joined name, and the text in front of it is the first max(1, k) labels joined |
| PublicSuffix.MatchesWildcard | app/src/main/java/org/mozilla/focus/utils/publicsuffix/PublicSuffix.java:162-165 | holds exactly when the name has a '.' and the text after its first '.' is a wildcard rule |
| PublicSuffix.SuffixStart | app/src/main/java/org/mozilla/focus/utils/publicsuffix/PublicSuffix.java:106-121 | the suffix starts one label further exactly when the ancestor is an exception rule and not a plain rule; otherwise at the ancestor |
| PublicSuffix.FirstMatchSpec | app/src/main/java/org/mozilla/focus/utils/publicsuffix/PublicSuffix.java:105-124 | the search stops at an ancestor that some rule applies to, or after the last label, and no rule applies to any ancestor it passed |
| PublicSuffix.FindPublicSuffixIndexSpec | app/src/main/java/org/mozilla/focus/utils/publicsuffix/PublicSuffix.java:101-125 | -1 exactly when no rule applies to any ancestor; otherwise joinIndex of the suffix start of a longest matching ancestor |
| PublicSuffix.FindPublicSuffixIndexAt | app/src/main/java/org/mozilla/focus/utils/publicsuffix/PublicSuffix.java:101-125 | when label i starts the longest matching ancestor, the offset is joinIndex of its suffix start |
| PublicSuffix.FindPublicSuffixIndex | app/src/main/java/org/mozilla/focus/utils/publicsuffix/PublicSuffix.java:101-125 | the offset is -1 or lies within the host name as given, end included |
| PublicSuffix.StripPublicSuffix | app/src/main/java/org/mozilla/focus/utils/publicsuffix/PublicSuffix.java:44-55 | the result is a prefix of the host name, and is the host name itself when that is empty or no rule applies |
| PublicSuffix.StripLeavesLabelsBeforeSuffix | app/src/main/java/org/mozilla/focus/utils/publicsuffix/PublicSuffix.java:44-55 | normalised, what stripping leaves is the labels in front of the suffix joined (at least the first label) |
| PublicSuffix.StripNormalName | app/src/main/java/org/mozilla/focus/utils/publicsuffix/PublicSuffix.java:44-55 | for a name in normal form whose suffix starts at label s >= 1, stripping leaves exactly the first s labels joined |
| PublicSuffix.SuffixLabelPosition | app/src/main/java/org/mozilla/focus/utils/publicsuffix/PublicSuffix.java:86-92 | the label position looked up is -1 or the index of a normalised label |
| PublicSuffix.SuffixFirstLabel | app/src/main/java/org/mozilla/focus/utils/publicsuffix/PublicSuffix.java:86-92 | for a name in normal form, the text after the offset in front of label s starts with label s, so the lookup finds label s's first occurrence |
| PublicSuffix.GetPublicSuffixOutcome | app/src/main/java/org/mozilla/focus/utils/publicsuffix/PublicSuffix.java:77-86 | IllegalArgumentException exactly for a negative count; "" when no rule applies; StringIndexOutOfBoundsException exactly when the offset is the end of the name |
| PublicSuffix.GetPublicSuffixIsAncestor | app/src/main/java/org/mozilla/focus/utils/publicsuffix/PublicSuffix.java:91-94 | a found suffix is always an ancestor of the normalised name |
| PublicSuffix.GetPublicSuffixMonotone | app/src/main/java/org/mozilla/focus/utils/publicsuffix/PublicSuffix.java:93-94 | from a count >= 0, raising the count never changes success and never shortens the answer: the answer for fewer labels is a suffix of the one for more |
| PublicSuffix.GetPublicSuffixWhole | app/src/main/java/org/mozilla/focus/utils/publicsuffix/PublicSuffix.java:92-94 | once the count reaches the position the suffix's first label was looked up at, the answer is the whole normalised name |
| PublicSuffix.GetPublicSuffixNormalName | app/src/main/java/org/mozilla/focus/utils/publicsuffix/PublicSuffix.java:81-94 | for a name in normal form whose suffix starts at label s >= 1 and whose label s does not occur earlier, the answer is the labels from max(0, s - count) on |
| PublicSuffixExamples.StripMozilla | app/src/main/java/org/mozilla/focus/utils/publicsuffix/PublicSuffix.java:39 | www.mozilla.org is stripped to www.mozilla |
| PublicSuffixExamples.StripIndependent | app/src/main/java/org/mozilla/focus/utils/publicsuffix/PublicSuffix.java:40 | independent.co.uk is stripped to independent |
| PublicSuffixExamples.SuffixOfBbc | app/src/main/java/org/mozilla/focus/utils/publicsuffix/PublicSuffix.java:60 | the public suffix of www.m.bbc.co.uk is co.uk |
| PublicSuffixExamples.SuffixOfBbcPlusOne | app/src/main/java/org/mozilla/focus/utils/publicsuffix/PublicSuffix.java:61 | with one additional label it is bbc.co.uk |
| PublicSuffixExamples.WholeBbc | app/src/main/java/org/mozilla/focus/utils/publicsuffix/PublicSuffix.java:92-94 | with three additional labels the answer for www.m.bbc.co.uk is the whole name |
| PublicSuffixCorrected.ByLabelOutcome | app/src/main/java/org/mozilla/focus/utils/publicsuffix/PublicSuffix.java:63-79 | the corrected answer fails exactly for a negative count, with IllegalArgumentException |
| PublicSuffixCorrected.ByLabelValue | app/src/main/java/org/mozilla/focus/utils/publicsuffix/PublicSuffix.java:57-65 | the corrected answer is the labels from max(0, suffix start - count) on, joined |
| PublicSuffixCorrected.ByLabelNotFound | app/src/main/java/org/mozilla/focus/utils/publicsuffix/PublicSuffix.java:82-84 | the corrected answer is "" when no rule applies |
| PublicSuffixFindings.ByLabelIsMatchedRule | app/src/main/java/org/mozilla/focus/utils/publicsuffix/PublicSuffix.java:106-121 | with no extra labels, the corrected answer is the longest matching ancestor for a plain or wildcard rule, and its parent for an exception rule |
| PublicSuffixFindings.ByLabelMonotone | app/src/main/java/org/mozilla/focus/utils/publicsuffix/PublicSuffix.java:57-61 | from a count >= 0, more extra labels never shorten the corrected answer |
| PublicSuffixFindings.ByLabelWhole | app/src/main/java/org/mozilla/focus/utils/publicsuffix/PublicSuffix.java:57-61 | once the count covers every label in front of the suffix, the corrected answer is the whole normalised name |
| PublicSuffixFindings.StripThenSuffixReassembles | app/src/main/java/org/mozilla/focus/utils/publicsuffix/PublicSuffix.java:44-95 | for a name in normal form whose suffix starts after the first label and before the end, what stripping leaves, a '.', and the corrected suffix give the name back |
| PublicSuffixFindings.ByLabelAgrees | app/src/main/java/org/mozilla/focus/utils/publicsuffix/PublicSuffix.java:81-94 | for a name in normal form whose suffix starts at label s, with 1 <= s < number of labels, and whose label s occurs nowhere in front, the version as written agrees with the corrected one |
| PublicSuffixFindings.BareSuffixFails | app/src/main/java/org/mozilla/focus/utils/publicsuffix/PublicSuffix.java:86 | a one-label name in normal form that is itself a plain rule makes the version as written fail with StringIndexOutOfBoundsException; the corrected one returns the name |
| PublicSuffixFindings.WholeNameLosesFirstLabel | app/src/main/java/org/mozilla/focus/utils/publicsuffix/PublicSuffix.java:150 | a name in normal form that is all suffix and whose first two labels differ answers, in the version as written, the labels from max(0, 1 - count) on, so with no extra labels it loses its first label; the corrected one returns the whole name |
| PublicSuffixFindings.TopLevelExceptionFails | app/src/main/java/org/mozilla/focus/utils/publicsuffix/PublicSuffix.java:115-116 | for a name in normal form, an exception rule naming the last label alone puts the offset at the end of the name, so the version as written fails with StringIndexOutOfBoundsException; the corrected one answers the last count labels |
| PublicSuffixFindings.RepeatedLabelMisplaced | app/src/main/java/org/mozilla/focus/utils/publicsuffix/PublicSuffix.java:92 | for a name in normal form, when the suffix's first label also occurs earlier, the version as written answers from the earlier occurrence |
| PublicSuffixCounterexamples.ComFails | app/src/main/java/org/mozilla/focus/utils/publicsuffix/PublicSuffix.java:86 | "com" under the plain rule "com" fails as written and gives "com" corrected |
| PublicSuffixCounterexamples.CoUkLosesCo | app/src/main/java/org/mozilla/focus/utils/publicsuffix/PublicSuffix.java:150 | "co.uk" under the plain rules "uk" and "co.uk" gives "uk" as written and "co.uk" corrected |
| PublicSuffixCounterexamples.CoCoUkRepeatsLabel | app/src/main/java/org/mozilla/focus/utils/publicsuffix/PublicSuffix.java:92 | "co.co.uk" gives "co.co.uk" as written and "co.uk" corrected |
| PublicSuffixCounterexamples.UpperCaseNotFound | app/src/main/java/org/mozilla/focus/utils/publicsuffix/PublicSuffix.java:86-93 | "MOZILLA.ORG" gives "mozilla.org" as written and "org" corrected |
| PublicSuffixCounterexamples.DotLikeNotFound | app/src/main/java/org/mozilla/focus/utils/publicsuffix/PublicSuffix.java:86-92 | "a.co\u3002uk" gives "a.co.uk" as written and "co.uk" corrected |
| PublicSuffixCounterexamples.UkExceptionFails | app/src/main/java/org/mozilla/focus/utils/publicsuffix/PublicSuffix.java:115-116 | "a.uk" under the exception rule "!uk" fails as written and gives "" corrected |
| PublicSuffixCounterexamples.StripCoUkKeepsCo | app/src/main/java/org/mozilla/focus/utils/publicsuffix/PublicSuffix.java:150 | "co.uk" under the plain rule "co.uk" is stripped to "co" |

## Left out

- `init` and loading the rule sets from disk through the Android `Context` are not modelled. The rule sets are the `Rules` parameter instead.
- The null checks on `context` and `domain`, and their NullPointerException, are left out. Dafny strings are never null.
- Lowercasing covers ASCII letters only, not Java's locale-sensitive Unicode `toLowerCase`. Non-ASCII letters are kept as they are.
- Because of that, the model never shows offsets that are out of line with the name as given. Java's `toLowerCase` can lengthen a name: outside Turkish locales U+0130 (capital I with dot above) becomes two characters, 'i' and U+0307. `normalizeAndSplit` then yields labels longer than the name as given, and the offsets computed from them land too far right in `domain`. For "x\u0130.com" under the plain rule "com", `stripPublicSuffix` would return "x\u0130." and `getPublicSuffix` would cut "om", not find it, and return the whole name. None of this is modelled.
- Characters are Unicode scalar values, whereas Java counts UTF-16 units. Offsets are not modelled for characters outside the Basic Multilingual Plane.
- The regular-expression engine is not modelled. `replaceAll` on the dot-like characters is a per-character map. The two `split` calls are written out in `Strings`.
- Java `int` arithmetic is unbounded in the model. `JoinIndex` never exceeds the length of the host name, so it cannot overflow.
- `FirefoxWebView.kt` and `DataUploadPreference.kt` are Android view and preference glue with no matching logic. They are not part of this model.
- PublicSuffixCorrected.ByLabelNotFound: states only that "" comes back when no rule applies, not the converse. A matched ancestor's labels can also join to "".

## Findings

The version as written (`PublicSuffix.GetPublicSuffix`) cuts the host name at the offset
`joinIndex` gives and then looks up the first label of the cut-off text among the
normalised labels. The corrected version (`PublicSuffixCorrected.GetPublicSuffixByLabel`)
uses the label position the search found.

The corrected version is proved to have the documented properties:
`PublicSuffixFindings.ByLabelIsMatchedRule`, `ByLabelMonotone`, `ByLabelWhole` and
`StripThenSuffixReassembles`. `PublicSuffixFindings.ByLabelAgrees` proves that both versions
agree on a name already in normal form (lower-case labels without dot-like characters, last
label not empty) whose suffix starts after the first label and before the end, and whose
suffix's first label occurs nowhere in front of it. Outside those conditions the versions can
differ; the rows below show each way this model exhibits.

| source | as written | input that shows it | evidently intended | confidence | as-written member | corrected member |
|---|---|---|---|---|---|---|
| app/src/main/java/org/mozilla/focus/utils/publicsuffix/PublicSuffix.java:86 | a one-label name without a trailing '.' that is a plain rule gets offset `joinIndex(parts, 0)` = its length, and `substring(length + 1)` throws | "com" with plain rule "com", 0 extra labels: StringIndexOutOfBoundsException | "com" | high; not executed | PublicSuffixFindings.BareSuffixFails | PublicSuffixCorrected.GetPublicSuffixByLabel |
| app/src/main/java/org/mozilla/focus/utils/publicsuffix/PublicSuffix.java:150 | for a name that is all suffix the offset is after the first label, so the lookup finds the second label when the second label differs from the first | "co.uk" with plain rules "uk" and "co.uk", 0 extra labels: "uk" | "co.uk" | high; not executed | PublicSuffixFindings.WholeNameLosesFirstLabel | PublicSuffixCorrected.GetPublicSuffixByLabel |
| app/src/main/java/org/mozilla/focus/utils/publicsuffix/PublicSuffix.java:92 | `indexOf` finds the first occurrence of the suffix's first label, which may be an earlier label | "co.co.uk" with plain rules "org", "uk" and "co.uk", 0 extra labels: "co.co.uk" | "co.uk" | high; not executed | PublicSuffixFindings.RepeatedLabelMisplaced | PublicSuffixCorrected.GetPublicSuffixByLabel |
| app/src/main/java/org/mozilla/focus/utils/publicsuffix/PublicSuffix.java:86-92 | the first label is cut from the name as given and looked up among lowercased labels, so an upper-case label is not found and the position -1 clamps to 0 | "MOZILLA.ORG" with plain rules "org", "uk" and "co.uk", 0 extra labels: "mozilla.org" | "org" | high; not executed | PublicSuffixCounterexamples.UpperCaseNotFound | PublicSuffixCorrected.GetPublicSuffixByLabel |
| app/src/main/java/org/mozilla/focus/utils/publicsuffix/PublicSuffix.java:86-92 | the first label is cut from the name as given at '.' only, so when a dot-like character other than '.' follows it, the rest of the name stays attached, the text is not found among the labels, and the position -1 clamps to 0 | "a.co\u3002uk" with plain rules "org", "uk" and "co.uk", 0 extra labels: "a.co.uk" | "co.uk" | high; not executed | PublicSuffixCounterexamples.DotLikeNotFound | PublicSuffixCorrected.GetPublicSuffixByLabel |
| app/src/main/java/org/mozilla/focus/utils/publicsuffix/PublicSuffix.java:115-116 | an exception rule that names the last label alone gives offset `joinIndex(parts, parts.size())`, which for a name without a trailing '.' is its length, and `substring(length + 1)` at line 86 throws | "a.uk" with exception rule "!uk", 0 extra labels: StringIndexOutOfBoundsException | "" | medium: the Public Suffix List has no one-label exception rule; not executed | PublicSuffixFindings.TopLevelExceptionFails | PublicSuffixCorrected.GetPublicSuffixByLabel |

=== FILE: corrected.dfy ===
/** getPublicSuffix as its documentation describes it, working on label positions
    throughout instead of cutting the host name at a character offset and looking the text
    up again. */
module PublicSuffixCorrected {
  import opened Strings
  import opened PublicSuffix

  /** getPublicSuffix as documented: the public suffix the search settled on, with
      `additionalPartCount` labels in front of it (at most all of them); "" when no rule
      applies; IllegalArgumentException for a negative count and no other failure. */
  function GetPublicSuffixByLabel(rules: Rules, domain: string, additionalPartCount: int): (r: Result<string>)
  {
    if additionalPartCount < 0 then Failure(IllegalArgumentException)
    else
      var parts := NormalizeAndSplit(domain);
      var m := FirstMatch(rules, parts, 0);
      if m == |parts| then Success("")
      else Success(Ancestor(parts, Max(0, SuffixStart(rules, parts, m) - additionalPartCount)))
  }

  /** The only failure is IllegalArgumentException, exactly for a negative count. */
  lemma ByLabelOutcome(rules: Rules, domain: string, k: int)
    ensures GetPublicSuffixByLabel(rules, domain, k).Failure? <==> k < 0
    ensures GetPublicSuffixByLabel(rules, domain, k).Failure? ==>
      GetPublicSuffixByLabel(rules, domain, k).error == IllegalArgumentException
  {
  }

  /** The answer once the longest matching ancestor is known: the labels from the start of
      its suffix, moved `k` labels to the left but not past the first. */
  lemma ByLabelValue(rules: Rules, domain: string, i: nat, k: int)
    requires IsFirstMatch(rules, NormalizeAndSplit(domain), i) && k >= 0
    ensures var parts := NormalizeAndSplit(domain);
      GetPublicSuffixByLabel(rules, domain, k) == Success(Ancestor(parts, Max(0, SuffixStart(rules, parts, i) - k)))
  {
    FirstMatchIs(rules, NormalizeAndSplit(domain), i);
  }

  /** "" when no rule applies to any ancestor, as for the definition as written. */
  lemma ByLabelNotFound(rules: Rules, domain: string, k: int)
    requires k >= 0 && FindPublicSuffixIndex(rules, domain) == -1
    ensures GetPublicSuffixByLabel(rules, domain, k) == Success("")
  {
  }

  /** For a host name in normal form, the answer read from its own labels. */
  lemma NormalNameByLabel(rules: Rules, ps: seq<string>, i: nat, k: int)
    requires IsNormalName(ps) && IsFirstMatch(rules, ps, i) && k >= 0
    ensures GetPublicSuffixByLabel(rules, Join(ps), k) == Success(Ancestor(ps, Max(0, SuffixStart(rules, ps, i) - k)))
  {
    NormalizeAndSplitJoin(ps);
    ByLabelValueOf(rules, Join(ps), ps, i, k);
  }

  /** ByLabelValue, read through labels known to be the normalised ones. */
  lemma ByLabelValueOf(rules: Rules, domain: string, ps: seq<string>, i: nat, k: int)
    requires NormalizeAndSplit(domain) == ps && IsFirstMatch(rules, ps, i) && k >= 0
    ensures GetPublicSuffixByLabel(rules, domain, k) == Success(Ancestor(ps, Max(0, SuffixStart(rules, ps, i) - k)))
  {
    ByLabelValue(rules, domain, i, k);
  }
}

=== FILE: counterexamples.dfy ===
/** The inputs that show each finding about getPublicSuffix, worked through both the
    definition as written and the corrected one. */
module PublicSuffixCounterexamples {
  import opened Strings
  import opened PublicSuffix
  import opened PublicSuffixCorrected
  import opened PublicSuffixFindings
  import opened PublicSuffixExamples

  /** "com" under the plain rule "com": the definition as written fails, the corrected one
      answers "com". */
  lemma ComFails(rules: Rules, d: string)
    requires rules == Rules({"com"}, {}, {}) && d == "com"
    ensures GetPublicSuffix(rules, d, 0) == Failure(StringIndexOutOfBoundsException)
    ensures GetPublicSuffixByLabel(rules, d, 0) == Success("com")
  {
    LowerLettersCanonical(d);
    assert Ancestor([d], 0) == d by { assert [d][0..] == [d]; }
    BareSuffixFails(rules, d, 0);
  }

  lemma CoUkLabels(parts: seq<string>)
    requires parts == ["co", "uk"]
    ensures IsNormalName(parts)
    ensures Ancestor(parts, 1) == "uk" && Ancestor(parts, 0) == "co.uk" && Join(parts) == "co.uk"
  {
    LowerLettersCanonical(parts[0]);
    LowerLettersCanonical(parts[1]);
    AncestorLast(parts);
    AncestorStep(parts, 0);
    assert parts[0..] == parts;
  }

  /** "co.uk" under the plain rules "uk" and "co.uk": the definition as written answers
      "uk", the corrected one "co.uk". */
  lemma CoUkLosesCo(rules: Rules, d: string)
    requires rules == Rules({"uk", "co.uk"}, {}, {}) && d == "co.uk"
    ensures GetPublicSuffix(rules, d, 0) == Success("uk")
    ensures GetPublicSuffixByLabel(rules, d, 0) == Success("co.uk")
  {
    var parts := ["co", "uk"];
    CoUkLabels(parts);
    assert IsFirstMatch(rules, parts, 0);
    WholeNameLosesFirstLabel(rules, parts, 0);
  }

  /** "co.uk" under the plain rules "uk" and "co.uk" is stripped to "co": joinIndex puts the
      offset of a whole-name suffix after the first label. The documentation does not say
      what stripping a name that is all suffix should give, so this is kept as written. */
  lemma StripCoUkKeepsCo(rules: Rules, d: string)
    requires rules == Rules({"uk", "co.uk"}, {}, {}) && d == "co.uk"
    ensures StripPublicSuffix(rules, d) == "co"
  {
    var parts := ["co", "uk"];
    CoUkLabels(parts);
    assert IsFirstMatch(rules, parts, 0);
    NormalNameIndex(rules, parts, 0);
    assert JoinIndex(parts, 0) == 2;
    StripAt(rules, d, 2);
  }

  lemma CoCoUkLabels(parts: seq<string>)
    requires parts == ["co", "co", "uk"]
    ensures IsNormalName(parts)
    ensures Ancestor(parts, 2) == "uk" && Ancestor(parts, 1) == "co.uk" && Ancestor(parts, 0) == "co.co.uk"
    ensures Join(parts) == "co.co.uk"
  {
    LowerLettersCanonical(parts[0]);
    LowerLettersCanonical(parts[1]);
    LowerLettersCanonical(parts[2]);
    AncestorLast(parts);
    AncestorStep(parts, 1);
    AncestorStep(parts, 0);
    assert parts[0..] == parts;
  }

  lemma CoCoUkMatch(rules: Rules, parts: seq<string>)
    requires rules == SampleRules() && parts == ["co", "co", "uk"]
    ensures IsFirstMatch(rules, parts, 1) && SuffixStart(rules, parts, 1) == 1
  {
    CoCoUkLabels(parts);
    forall j | 0 <= j < 1
      ensures !Matches(rules, Ancestor(parts, j))
    {
      MatchesSample("co.co.uk");
    }
    MatchesSample("co.uk");
  }

  /** "co.co.uk" under the sample rules: the suffix "co.uk" starts with a label that also
      comes first, so the definition as written answers the whole name, the corrected one
      "co.uk". */
  lemma CoCoUkRepeatsLabel(rules: Rules, d: string)
    requires rules == SampleRules() && d == "co.co.uk"
    ensures GetPublicSuffix(rules, d, 0) == Success("co.co.uk")
    ensures GetPublicSuffixByLabel(rules, d, 0) == Success("co.uk")
  {
    var parts := ["co", "co", "uk"];
    CoCoUkLabels(parts);
    CoCoUkMatch(rules, parts);
    assert parts[..0] == [];
    RepeatedLabelMisplaced(rules, parts, 1, 0, 0);
  }

  /** "MOZILLA.ORG" normalises to the labels "mozilla" and "org". */
  lemma UpperCaseLabels(d: string, parts: seq<string>)
    requires d == "MOZILLA.ORG" && parts == ["mozilla", "org"]
    ensures NormalizeAndSplit(d) == parts
    ensures Ancestor(parts, 1) == "org" && Ancestor(parts, 0) == "mozilla.org"
    ensures d[8..] == "ORG"
  {
    UpperCaseAncestors(parts);
    UpperCaseCanonical(d);
    assert parts[0..] == parts;
    assert Normalize(d) == Join(parts);
    SplitJoin(parts);
  }

  lemma UpperCaseAncestors(parts: seq<string>)
    requires parts == ["mozilla", "org"]
    ensures Ancestor(parts, 1) == "org" && Ancestor(parts, 0) == "mozilla.org"
  {
    AncestorLast(parts);
    AncestorStep(parts, 0);
  }

  lemma UpperCaseCanonical(d: string)
    requires d == "MOZILLA.ORG"
    ensures Canonical(d) == "mozilla.org"
  {
    CanonicalByChar(d, "mozilla.org");
  }

  lemma UpperCaseMatch(rules: Rules, parts: seq<string>)
    requires rules == SampleRules() && parts == ["mozilla", "org"]
    ensures IsFirstMatch(rules, parts, 1) && SuffixStart(rules, parts, 1) == 1
    ensures JoinIndex(parts, 1) == 7
  {
    UpperCaseAncestors(parts);
    forall j | 0 <= j < 1
      ensures !Matches(rules, Ancestor(parts, j))
    {
      MatchesSample("mozilla.org");
    }
    MatchesSample("org");
  }

  /** "MOZILLA.ORG" under the sample rules: the first label of the suffix is looked up as
      written ("ORG") among the lower-cased labels, is not found, and the definition as
      written answers the whole name; the corrected one answers "org". */
  lemma UpperCaseNotFound(rules: Rules, d: string)
    requires rules == SampleRules() && d == "MOZILLA.ORG"
    ensures GetPublicSuffix(rules, d, 0) == Success("mozilla.org")
    ensures GetPublicSuffixByLabel(rules, d, 0) == Success("org")
  {
    var parts := ["mozilla", "org"];
    UpperCaseLabels(d, parts);
    UpperCaseMatch(rules, parts);
    UpperCasePosition(rules, d, parts);
    SuffixValue(rules, parts, d, 7, -1, 0);
    assert parts[0..] == parts;
    ByLabelValue(rules, d, 1, 0);
  }

  /** The offset found is 7, in front of "ORG", and "ORG" is not among the labels. */
  lemma UpperCasePosition(rules: Rules, d: string, parts: seq<string>)
    requires rules == SampleRules() && d == "MOZILLA.ORG" && parts == ["mozilla", "org"]
    requires NormalizeAndSplit(d) == parts && IsFirstMatch(rules, parts, 1)
    requires SuffixStart(rules, parts, 1) == 1 && JoinIndex(parts, 1) == 7 && d[8..] == "ORG"
    ensures FindPublicSuffixIndex(rules, d) == 7 && SuffixLabelPosition(d, 7) == -1
  {
    FindPublicSuffixIndexAt(rules, d, 1);
    IndexOfSpec(d[8..], '.');
    IndexOfSpec(parts, "ORG");
    assert IndexOf(d[8..], '.') == -1;
    assert IndexOf(parts, "ORG") == -1;
    SuffixLabelPositionOf(d, 7, "ORG");
  }

  lemma UkLabels(parts: seq<string>)
    requires parts == ["a", "uk"]
    ensures IsNormalName(parts)
    ensures Ancestor(parts, 2) == "" && Ancestor(parts, 1) == "uk" && Ancestor(parts, 0) == "a.uk"
    ensures Join(parts) == "a.uk"
  {
    LowerLettersCanonical(parts[0]);
    LowerLettersCanonical(parts[1]);
    AncestorLast(parts);
    AncestorStep(parts, 0);
    assert parts[0..] == parts;
    assert parts[2..] == [];
  }

  lemma UkMatch(rules: Rules, parts: seq<string>)
    requires rules == Rules({}, {"uk"}, {}) && parts == ["a", "uk"]
    ensures IsFirstMatch(rules, parts, 1) && SuffixStart(rules, parts, 1) == 2
  {
    UkLabels(parts);
    assert !MatchesWildcard(rules.under, Ancestor(parts, 0));
  }

  /** "a.uk" under the exception rule "!uk": the definition as written fails, the corrected
      one answers "". */
  lemma UkExceptionFails(rules: Rules, d: string)
    requires rules == Rules({}, {"uk"}, {}) && d == "a.uk"
    ensures GetPublicSuffix(rules, d, 0) == Failure(StringIndexOutOfBoundsException)
    ensures GetPublicSuffixByLabel(rules, d, 0) == Success("")
  {
    var parts := ["a", "uk"];
    UkLabels(parts);
    UkMatch(rules, parts);
    TopLevelExceptionFails(rules, parts, 0);
  }

  /** "a.co\u3002uk" normalises to the labels "a", "co" and "uk". */
  lemma DotLikeLabels(d: string, parts: seq<string>)
    requires d == "a.co\U{3002}uk" && parts == ["a", "co", "uk"]
    ensures NormalizeAndSplit(d) == parts
    ensures Ancestor(parts, 1) == "co.uk" && Ancestor(parts, 0) == "a.co.uk"
    ensures d[2..] == "co\U{3002}uk"
  {
    DotLikeAncestors(parts);
    DotLikeCanonical(d);
    assert parts[0..] == parts;
    assert Normalize(d) == Join(parts);
    SplitJoin(parts);
  }

  lemma DotLikeCanonical(d: string)
    requires d == "a.co\U{3002}uk"
    ensures Canonical(d) == "a.co.uk"
  {
    CanonicalByChar(d, "a.co.uk");
  }

  lemma DotLikeAncestors(parts: seq<string>)
    requires parts == ["a", "co", "uk"]
    ensures Ancestor(parts, 1) == "co.uk" && Ancestor(parts, 0) == "a.co.uk"
  {
    AncestorLast(parts);
    AncestorStep(parts, 1);
    AncestorStep(parts, 0);
  }

  lemma DotLikeMatch(rules: Rules, parts: seq<string>)
    requires rules == SampleRules() && parts == ["a", "co", "uk"]
    ensures IsFirstMatch(rules, parts, 1) && SuffixStart(rules, parts, 1) == 1
    ensures JoinIndex(parts, 1) == 1
  {
    DotLikeAncestors(parts);
    forall j | 0 <= j < 1
      ensures !Matches(rules, Ancestor(parts, j))
    {
      MatchesSample("a.co.uk");
    }
    MatchesSample("co.uk");
  }

  /** "a.co\u3002uk" under the sample rules: the text after the offset is cut at '.' only, so
      "co\u3002uk" is looked up among the labels, is not found, and the definition as written
      answers the whole name; the corrected one answers "co.uk". */
  lemma DotLikeNotFound(rules: Rules, d: string)
    requires rules == SampleRules() && d == "a.co\U{3002}uk"
    ensures GetPublicSuffix(rules, d, 0) == Success("a.co.uk")
    ensures GetPublicSuffixByLabel(rules, d, 0) == Success("co.uk")
  {
    var parts := ["a", "co", "uk"];
    DotLikeLabels(d, parts);
    DotLikeMatch(rules, parts);
    DotLikePosition(rules, d, parts);
    SuffixValue(rules, parts, d, 1, -1, 0);
    ByLabelValue(rules, d, 1, 0);
  }

  /** The offset found is 1, in front of "co\u3002uk", and that text is not among the labels. */
  lemma DotLikePosition(rules: Rules, d: string, parts: seq<string>)
    requires rules == SampleRules() && d == "a.co\U{3002}uk" && parts == ["a", "co", "uk"]
    requires NormalizeAndSplit(d) == parts && IsFirstMatch(rules, parts, 1)
    requires SuffixStart(rules, parts, 1) == 1 && JoinIndex(parts, 1) == 1 && d[2..] == "co\U{3002}uk"
    ensures FindPublicSuffixIndex(rules, d) == 1 && SuffixLabelPosition(d, 1) == -1
  {
    FindPublicSuffixIndexAt(rules, d, 1);
    IndexOfSpec(d[2..], '.');
    IndexOfSpec(parts, "co\U{3002}uk");
    assert IndexOf(d[2..], '.') == -1;
    assert IndexOf(parts, "co\U{3002}uk") == -1;
    SuffixLabelPositionOf(d, 1, "co\U{3002}uk");
  }
}

=== FILE: examples.dfy ===
/** The worked examples from the documentation of the public-suffix helpers, under a small
    rule set holding the plain rules they rely on. Each example is split into the facts
    about its labels, the facts about its rule match, and the conclusion drawn from them. */
module PublicSuffixExamples {
  import opened Strings
  import opened PublicSuffix

  /** Plain rules "org", "uk" and "co.uk"; no exception or wildcard rules. */
  function SampleRules(): Rules
  {
    Rules({"org", "uk", "co.uk"}, {}, {})
  }

  /** With no exception or wildcard rules, a name matches exactly when it is a plain rule. */
  lemma MatchesSample(name: string)
    ensures Matches(SampleRules(), name) <==> name == "org" || name == "uk" || name == "co.uk"
  {
  }

  // www.mozilla.org

  lemma MozillaLabels(parts: seq<string>)
    requires parts == ["www", "mozilla", "org"]
    ensures IsNormalName(parts)
    ensures Ancestor(parts, 2) == "org"
    ensures Ancestor(parts, 1) == "mozilla.org"
    ensures Ancestor(parts, 0) == "www.mozilla.org"
    ensures Join(parts[..2]) == "www.mozilla"
  {
    LowerLettersCanonical(parts[0]);
    LowerLettersCanonical(parts[1]);
    LowerLettersCanonical(parts[2]);
    AncestorLast(parts);
    AncestorStep(parts, 1);
    AncestorStep(parts, 0);
    MozillaFront(parts, parts[..2]);
  }

  lemma MozillaFront(parts: seq<string>, front: seq<string>)
    requires parts == ["www", "mozilla", "org"] && front == parts[..2]
    ensures Join(front) == "www.mozilla"
  {
    assert front == ["www", "mozilla"];
    AncestorStep(front, 0);
    AncestorLast(front);
  }

  lemma MozillaMatch(rules: Rules, parts: seq<string>)
    requires rules == SampleRules() && parts == ["www", "mozilla", "org"]
    ensures IsFirstMatch(rules, parts, 2) && SuffixStart(rules, parts, 2) == 2
  {
    MozillaLabels(parts);
    forall j | 0 <= j < 2
      ensures !Matches(rules, Ancestor(parts, j))
    {
      if j == 0 {
        MatchesSample("www.mozilla.org");
      } else {
        MatchesSample("mozilla.org");
      }
    }
    MatchesSample("org");
  }

  /** www.mozilla.org loses its suffix "org". */
  lemma StripMozilla(rules: Rules, d: string)
    requires rules == SampleRules() && d == "www.mozilla.org"
    ensures StripPublicSuffix(rules, d) == "www.mozilla"
  {
    var parts := ["www", "mozilla", "org"];
    MozillaLabels(parts);
    MozillaMatch(rules, parts);
    StripNormalName(rules, parts, 2);
  }

  // independent.co.uk

  lemma IndependentLabels(parts: seq<string>)
    requires parts == ["independent", "co", "uk"]
    ensures IsNormalName(parts)
    ensures Ancestor(parts, 2) == "uk"
    ensures Ancestor(parts, 1) == "co.uk"
    ensures Ancestor(parts, 0) == "independent.co.uk"
    ensures Join(parts[..1]) == "independent"
  {
    LowerLettersCanonical(parts[0]);
    LowerLettersCanonical(parts[1]);
    LowerLettersCanonical(parts[2]);
    AncestorLast(parts);
    AncestorStep(parts, 1);
    AncestorStep(parts, 0);
    assert parts[..1] == ["independent"];
  }

  lemma IndependentMatch(rules: Rules, parts: seq<string>)
    requires rules == SampleRules() && parts == ["independent", "co", "uk"]
    ensures IsFirstMatch(rules, parts, 1) && SuffixStart(rules, parts, 1) == 1
  {
    IndependentLabels(parts);
    forall j | 0 <= j < 1
      ensures !Matches(rules, Ancestor(parts, j))
    {
      MatchesSample("independent.co.uk");
    }
    MatchesSample("co.uk");
  }

  /** independent.co.uk loses its suffix "co.uk": the longer plain rule is found first. */
  lemma StripIndependent(rules: Rules, d: string)
    requires rules == SampleRules() && d == "independent.co.uk"
    ensures StripPublicSuffix(rules, d) == "independent"
  {
    var parts := ["independent", "co", "uk"];
    IndependentLabels(parts);
    IndependentMatch(rules, parts);
    StripNormalName(rules, parts, 1);
  }

  // www.m.bbc.co.uk

  lemma BbcLabels(parts: seq<string>)
    requires parts == ["www", "m", "bbc", "co", "uk"]
    ensures IsNormalName(parts)
    ensures parts[3] !in parts[..3]
  {
    LowerLettersCanonical(parts[0]);
    LowerLettersCanonical(parts[1]);
    LowerLettersCanonical(parts[2]);
    LowerLettersCanonical(parts[3]);
    LowerLettersCanonical(parts[4]);
    assert parts[..3] == ["www", "m", "bbc"];
  }

  lemma BbcAncestors(parts: seq<string>)
    requires parts == ["www", "m", "bbc", "co", "uk"]
    ensures Ancestor(parts, 4) == "uk"
    ensures Ancestor(parts, 3) == "co.uk"
    ensures Ancestor(parts, 2) == "bbc.co.uk"
    ensures Ancestor(parts, 1) == "m.bbc.co.uk"
    ensures Ancestor(parts, 0) == "www.m.bbc.co.uk"
  {
    AncestorLast(parts);
    AncestorStep(parts, 3);
    AncestorStep(parts, 2);
    AncestorStep(parts, 1);
    AncestorStep(parts, 0);
  }

  /** One of the ancestors of www.m.bbc.co.uk, on its own. */
  lemma BbcAncestor(parts: seq<string>, i: nat, name: string)
    requires parts == ["www", "m", "bbc", "co", "uk"]
    requires (i == 3 && name == "co.uk") || (i == 2 && name == "bbc.co.uk") || (i == 0 && name == "www.m.bbc.co.uk")
    ensures i <= |parts| && Ancestor(parts, i) == name
  {
    BbcAncestors(parts);
  }

  lemma BbcMatch(rules: Rules, parts: seq<string>)
    requires rules == SampleRules() && parts == ["www", "m", "bbc", "co", "uk"]
    ensures IsFirstMatch(rules, parts, 3) && SuffixStart(rules, parts, 3) == 3
  {
    BbcAncestors(parts);
    forall j | 0 <= j < 3
      ensures !Matches(rules, Ancestor(parts, j))
    {
      if j == 0 {
        MatchesSample("www.m.bbc.co.uk");
      } else if j == 1 {
        MatchesSample("m.bbc.co.uk");
      } else {
        MatchesSample("bbc.co.uk");
      }
    }
    MatchesSample("co.uk");
  }

  /** Under the sample rules, www.m.bbc.co.uk has the suffix that starts at "co", with
      `k` labels in front of it. */
  lemma BbcSuffix(rules: Rules, parts: seq<string>, d: string, k: int)
    requires rules == SampleRules() && parts == ["www", "m", "bbc", "co", "uk"] && k >= 0
    requires d == "www.m.bbc.co.uk"
    ensures GetPublicSuffix(rules, d, k) == Success(Ancestor(parts, Max(0, 3 - k)))
  {
    BbcLabels(parts);
    BbcMatch(rules, parts);
    BbcJoin(parts, d);
    GetPublicSuffixNormalName(rules, parts, 3, k);
  }

  lemma BbcJoin(parts: seq<string>, d: string)
    requires parts == ["www", "m", "bbc", "co", "uk"] && d == "www.m.bbc.co.uk"
    ensures Join(parts) == d
  {
    BbcAncestors(parts);
    assert parts[0..] == parts;
  }

  /** www.m.bbc.co.uk has public suffix "co.uk". */
  lemma SuffixOfBbc(rules: Rules, d: string)
    requires rules == SampleRules() && d == "www.m.bbc.co.uk"
    ensures GetPublicSuffix(rules, d, 0) == Success("co.uk")
  {
    var parts := ["www", "m", "bbc", "co", "uk"];
    BbcSuffix(rules, parts, d, 0);
    BbcAncestor(parts, 3, "co.uk");
  }

  /** With one additional label, www.m.bbc.co.uk has public suffix "bbc.co.uk". */
  lemma SuffixOfBbcPlusOne(rules: Rules, d: string)
    requires rules == SampleRules() && d == "www.m.bbc.co.uk"
    ensures GetPublicSuffix(rules, d, 1) == Success("bbc.co.uk")
  {
    var parts := ["www", "m", "bbc", "co", "uk"];
    BbcSuffix(rules, parts, d, 1);
    BbcAncestor(parts, 2, "bbc.co.uk");
  }

  /** With three additional labels the count reaches the first label, and the answer is the
      whole name. */
  lemma WholeBbc(rules: Rules, d: string)
    requires rules == SampleRules() && d == "www.m.bbc.co.uk"
    ensures GetPublicSuffix(rules, d, 3) == Success("www.m.bbc.co.uk")
  {
    var parts := ["www", "m", "bbc", "co", "uk"];
    BbcSuffix(rules, parts, d, 3);
    BbcAncestor(parts, 0, "www.m.bbc.co.uk");
  }
}

=== FILE: findings.dfy ===
/** getPublicSuffix finds the suffix by label (the longest matching ancestor), turns that
    label into a character offset with joinIndex, cuts the host name at the offset, and then
    turns the text back into a label position by looking its first label up among the
    normalised labels. The round trip through text loses information in six ways; four are
    stated here as general lemmas on the definition as written, and the upper-case and
    dot-like ones are shown on concrete inputs in `PublicSuffixCounterexamples`; `GetPublicSuffixByLabel` keeps the label the search
    found and has the properties the documentation describes. */
module PublicSuffixFindings {
  import opened Strings
  import opened PublicSuffix
  import opened PublicSuffixCorrected

  // ---------------------------------------------------------------------------------------
  // Properties of the corrected definition

  /** With no additional labels the answer is the public suffix itself: the longest ancestor
      that a plain rule names, the parent of the longest ancestor an exception rule names,
      or the longest ancestor that falls under a wildcard rule. */
  lemma ByLabelIsMatchedRule(rules: Rules, domain: string, i: nat)
    requires IsFirstMatch(rules, NormalizeAndSplit(domain), i)
    ensures var parts := NormalizeAndSplit(domain);
      var r := GetPublicSuffixByLabel(rules, domain, 0); var name := Ancestor(parts, i);
      && (name in rules.exact ==> r == Success(name))
      && (name !in rules.exact && name in rules.excluded ==> r == Success(Ancestor(parts, i + 1)))
      && (name !in rules.exact && name !in rules.excluded ==>
            r == Success(name) && MatchesWildcard(rules.under, name))
  {
    ByLabelValue(rules, domain, i, 0);
  }

  /** Asking for more labels never shortens the answer. */
  lemma ByLabelMonotone(rules: Rules, domain: string, k1: int, k2: int)
    requires 0 <= k1 <= k2
    ensures IsSuffix(GetPublicSuffixByLabel(rules, domain, k1).value, GetPublicSuffixByLabel(rules, domain, k2).value)
  {
    var parts := NormalizeAndSplit(domain);
    var m := FirstMatch(rules, parts, 0);
    FirstMatchFound(rules, parts);
    if m < |parts| {
      ByLabelMonotoneFound(rules, domain, m, k1, k2);
    } else {
      assert GetPublicSuffixByLabel(rules, domain, k1) == Success("");
      assert GetPublicSuffixByLabel(rules, domain, k2) == Success("");
    }
  }

  lemma ByLabelMonotoneFound(rules: Rules, domain: string, i: nat, k1: int, k2: int)
    requires 0 <= k1 <= k2 && IsFirstMatch(rules, NormalizeAndSplit(domain), i)
    ensures IsSuffix(GetPublicSuffixByLabel(rules, domain, k1).value, GetPublicSuffixByLabel(rules, domain, k2).value)
  {
    var parts := NormalizeAndSplit(domain);
    var s := SuffixStart(rules, parts, i);
    ByLabelValueOf(rules, domain, parts, i, k1);
    ByLabelValueOf(rules, domain, parts, i, k2);
    AncestorResults(parts, s, k1, k2,
      GetPublicSuffixByLabel(rules, domain, k1), GetPublicSuffixByLabel(rules, domain, k2));
  }

  /** Once the additional labels cover every label in front of the suffix, the answer is the
      whole normalised host name. */
  lemma ByLabelWhole(rules: Rules, domain: string, i: nat, k: int)
    requires IsFirstMatch(rules, NormalizeAndSplit(domain), i)
    requires k >= SuffixStart(rules, NormalizeAndSplit(domain), i)
    ensures GetPublicSuffixByLabel(rules, domain, k) == Success(Join(NormalizeAndSplit(domain)))
  {
    var parts := NormalizeAndSplit(domain);
    ByLabelValue(rules, domain, i, k);
    assert parts[0..] == parts;
  }

  /** For a host name in normal form, what stripping leaves, a '.', and the public suffix
      put the host name back together. */
  lemma StripThenSuffixReassembles(rules: Rules, ps: seq<string>, i: nat)
    requires IsNormalName(ps) && IsFirstMatch(rules, ps, i)
    requires 1 <= SuffixStart(rules, ps, i) < |ps|
    ensures StripPublicSuffix(rules, Join(ps)) + "." + GetPublicSuffixByLabel(rules, Join(ps), 0).value == Join(ps)
  {
    var s := SuffixStart(rules, ps, i);
    StripNormalName(rules, ps, i);
    NormalNameByLabel(rules, ps, i, 0);
    ReassembledAt(rules, ps, s);
  }

  /** Stripping that leaves the labels in front of s and an answer that is the ancestor at s
      put the name back together. */
  lemma ReassembledAt(rules: Rules, ps: seq<string>, s: nat)
    requires 1 <= s < |ps|
    requires StripPublicSuffix(rules, Join(ps)) == Join(ps[..s])
    requires GetPublicSuffixByLabel(rules, Join(ps), 0) == Success(Ancestor(ps, s))
    ensures StripPublicSuffix(rules, Join(ps)) + "." + GetPublicSuffixByLabel(rules, Join(ps), 0).value == Join(ps)
  {
    JoinAroundSuffix(ps, s);
    Reassembled(StripPublicSuffix(rules, Join(ps)), GetPublicSuffixByLabel(rules, Join(ps), 0),
      Join(ps[..s]), Ancestor(ps, s), Join(ps));
  }

  /** The labels in front of label s, a '.', and the ancestor at s make up the whole name. */
  lemma JoinAroundSuffix(ps: seq<string>, s: nat)
    requires 1 <= s < |ps|
    ensures Join(ps) == Join(ps[..s]) + "." + Ancestor(ps, s)
  {
    JoinSplitAt(ps, s);
  }

  /** A front part, a '.', and a successful answer that make up a whole name. */
  lemma Reassembled(front: string, r: Result<string>, a: string, b: string, whole: string)
    requires front == a && r == Success(b) && whole == a + "." + b
    ensures r.Success? && front + "." + r.value == whole
  {
  }

  /** Where the text round trip is harmless (the suffix starts after the first label and its
      first label occurs nowhere in front of it), the definition as written agrees with the
      corrected one. */
  lemma ByLabelAgrees(rules: Rules, ps: seq<string>, i: nat, k: int)
    requires IsNormalName(ps) && IsFirstMatch(rules, ps, i)
    requires 1 <= SuffixStart(rules, ps, i) < |ps|
    requires ps[SuffixStart(rules, ps, i)] !in ps[..SuffixStart(rules, ps, i)]
    requires k >= 0
    ensures GetPublicSuffix(rules, Join(ps), k) == GetPublicSuffixByLabel(rules, Join(ps), k)
  {
    GetPublicSuffixNormalName(rules, ps, i, k);
    NormalNameByLabel(rules, ps, i, k);
  }

  // ---------------------------------------------------------------------------------------
  // The definition as written

  /** A one-label host name that is itself a plain rule: joinIndex puts the offset at the
      end of the name, and cutting the text after it fails. */
  lemma BareSuffixFails(rules: Rules, l: string, k: int)
    requires IsNormalName([l]) && IsFirstMatch(rules, [l], 0) && SuffixStart(rules, [l], 0) == 0
    requires k >= 0
    ensures GetPublicSuffix(rules, l, k) == Failure(StringIndexOutOfBoundsException)
    ensures GetPublicSuffixByLabel(rules, l, k) == Success(l)
  {
    var ps := [l];
    assert Join(ps) == l;
    NormalizeAndSplitJoin(ps);
    FindPublicSuffixIndexAt(rules, l, 0);
    assert ps[..1] == ps;
    ByLabelValue(rules, l, 0, k);
    assert ps[0..] == ps;
  }

  /** A host name whose whole self is the public suffix: joinIndex gives the offset after
      the first label, so the first label is lost from the answer. */
  lemma WholeNameLosesFirstLabel(rules: Rules, ps: seq<string>, k: int)
    requires IsNormalName(ps) && |ps| >= 2 && ps[1] != ps[0]
    requires IsFirstMatch(rules, ps, 0) && SuffixStart(rules, ps, 0) == 0
    requires k >= 0
    ensures GetPublicSuffix(rules, Join(ps), k) == Success(Ancestor(ps, Max(0, 1 - k)))
    ensures GetPublicSuffixByLabel(rules, Join(ps), k) == Success(Join(ps))
  {
    WholeNamePosition(rules, ps);
    NormalNameAncestor(ps, Max(0, 1 - k));
    SuffixValue(rules, ps, Join(ps), JoinIndex(ps, 1), 1, k);
    NormalNameByLabel(rules, ps, 0, k);
    assert ps[0..] == ps;
  }

  /** The offset found for a whole-name suffix is the one in front of the second label, and
      the text after it starts with that label. */
  lemma WholeNamePosition(rules: Rules, ps: seq<string>)
    requires IsNormalName(ps) && |ps| >= 2 && ps[1] != ps[0]
    requires IsFirstMatch(rules, ps, 0) && SuffixStart(rules, ps, 0) == 0
    ensures var index := JoinIndex(ps, 1);
      && FindPublicSuffixIndex(rules, Join(ps)) == index
      && index < |Join(ps)|
      && SuffixLabelPosition(Join(ps), index) == 1
  {
    NormalNameIndex(rules, ps, 0);
    assert JoinIndex(ps, 0) == JoinIndex(ps, 1);
    SuffixFirstLabel(ps, 1);
    assert ps[..1] == [ps[0]];
    IndexOfUnique(ps, ps[1], 1);
  }

  /** When the first label of the suffix also occurs further left, the lookup by text finds
      the earlier occurrence and the answer starts there. */
  lemma RepeatedLabelMisplaced(rules: Rules, ps: seq<string>, i: nat, p: nat, k: int)
    requires IsNormalName(ps) && IsFirstMatch(rules, ps, i)
    requires 1 <= SuffixStart(rules, ps, i) < |ps|
    requires p < SuffixStart(rules, ps, i) && ps[p] == ps[SuffixStart(rules, ps, i)] && ps[p] !in ps[..p]
    requires k >= 0
    ensures GetPublicSuffix(rules, Join(ps), k) == Success(Ancestor(ps, Max(0, p - k)))
    ensures GetPublicSuffixByLabel(rules, Join(ps), k) == Success(Ancestor(ps, Max(0, SuffixStart(rules, ps, i) - k)))
  {
    var s := SuffixStart(rules, ps, i);
    RepeatedLabelPosition(rules, ps, i, p);
    NormalNameAncestor(ps, Max(0, p - k));
    SuffixValue(rules, ps, Join(ps), JoinIndex(ps, s), p, k);
    NormalNameByLabel(rules, ps, i, k);
  }

  /** An exception rule that names the last label alone moves the suffix start past the last
      label: the offset is the end of the name, so the definition as written fails, where the
      corrected one answers the last `k` labels ("" for none). */
  lemma TopLevelExceptionFails(rules: Rules, ps: seq<string>, k: int)
    requires IsNormalName(ps) && IsFirstMatch(rules, ps, |ps| - 1)
    requires SuffixStart(rules, ps, |ps| - 1) == |ps|
    requires k >= 0
    ensures GetPublicSuffix(rules, Join(ps), k) == Failure(StringIndexOutOfBoundsException)
    ensures GetPublicSuffixByLabel(rules, Join(ps), k) == Success(Ancestor(ps, Max(0, |ps| - k)))
  {
    NormalNameIndexAtEnd(rules, ps);
    IndexPastEndFails(rules, Join(ps), k);
    NormalNameByLabel(rules, ps, |ps| - 1, k);
  }

  /** The offset of a suffix that starts past the last label is the end of the name. */
  lemma NormalNameIndexAtEnd(rules: Rules, ps: seq<string>)
    requires IsNormalName(ps) && IsFirstMatch(rules, ps, |ps| - 1)
    requires SuffixStart(rules, ps, |ps| - 1) == |ps|
    ensures FindPublicSuffixIndex(rules, Join(ps)) == |Join(ps)|
  {
    NormalNameIndex(rules, ps, |ps| - 1);
    JoinIndexLocatesSuffix(ps, |ps|);
  }

  /** An offset at the end of the name makes getPublicSuffix fail. */
  lemma IndexPastEndFails(rules: Rules, d: string, k: int)
    requires FindPublicSuffixIndex(rules, d) == |d| && k >= 0
    ensures GetPublicSuffix(rules, d, k) == Failure(StringIndexOutOfBoundsException)
  {
    GetPublicSuffixOutcome(rules, d, k);
  }

  /** The label looked up for the suffix is found at its earlier occurrence p. */
  lemma RepeatedLabelPosition(rules: Rules, ps: seq<string>, i: nat, p: nat)
    requires IsNormalName(ps) && IsFirstMatch(rules, ps, i)
    requires 1 <= SuffixStart(rules, ps, i) < |ps|
    requires p < SuffixStart(rules, ps, i) && ps[p] == ps[SuffixStart(rules, ps, i)] && ps[p] !in ps[..p]
    ensures var index := JoinIndex(ps, SuffixStart(rules, ps, i));
      && FindPublicSuffixIndex(rules, Join(ps)) == index
      && index < |Join(ps)|
      && SuffixLabelPosition(Join(ps), index) == p
  {
    var s := SuffixStart(rules, ps, i);
    NormalNameIndex(rules, ps, i);
    SuffixFirstLabel(ps, s);
    IndexOfUnique(ps, ps[s], p);
  }
}

=== FILE: public_suffix.dfy ===
/** The public-suffix matcher of the browser: find where the public suffix of a host name
    starts (following the plain, exception "!" and wildcard "*." rules of the Public Suffix
    List), strip it, or return it with a number of extra labels in front.

    The three rule sets are a parameter (`Rules`); in the browser they are loaded from disk.
    Offsets are computed on the normalised host name and then applied to the host name as
    given. In this model that is sound, because dot replacement and ASCII lowercasing keep
    every character in place and normalisation at most drops the last one; Java's Unicode
    lowercasing can change the length of a name, which this model does not follow.
 */
module PublicSuffix {
  import opened Strings

  /** The rules of the list: plain rules ("co.uk"), exception rules ("!nhs.uk", held without
      the '!') and wildcard rules ("*.ar", held as the name under the wildcard, "ar"). */
  datatype Rules = Rules(exact: set<string>, excluded: set<string>, under: set<string>)

  /** The exceptions getPublicSuffix can throw on a non-null domain. */
  datatype Exception = IllegalArgumentException | StringIndexOutOfBoundsException

  datatype Result<T> = Success(value: T) | Failure(error: Exception)

  function Max(a: int, b: int): int { if a < b then b else a }

  // ---------------------------------------------------------------------------------------
  // Normalisation

  /** '.', ideographic full stop, fullwidth full stop and halfwidth ideographic full stop. */
  predicate IsDotLike(c: char)
  {
    c == '.' || c == '\U{3002}' || c == '\U{FF0E}' || c == '\U{FF61}'
  }

  predicate IsAsciiUpper(c: char)
  {
    'A' <= c <= 'Z'
  }

  /** Lowercasing, restricted to ASCII letters: it never changes the length of a string. */
  function ToLower(c: char): (r: char)
    ensures !IsAsciiUpper(r)
    ensures IsDotLike(r) <==> IsDotLike(c)
  {
    if IsAsciiUpper(c) then (c as int + 32) as char else c
  }

  /** One character as normalizeAndSplit rewrites it: a dot-like character becomes '.', and
      the result is lowercased. */
  function CanonicalChar(c: char): (r: char)
    ensures !IsAsciiUpper(r)
    ensures IsDotLike(r) <==> IsDotLike(c)
    ensures IsDotLike(r) ==> r == '.'
  {
    ToLower(if IsDotLike(c) then '.' else c)
  }

  /** The host name after dot replacement and lowercasing, character by character. */
  function Canonical(s: string): (r: string)
    ensures |r| == |s|
    decreases |s|
  {
    if |s| == 0 then "" else [CanonicalChar(s[0])] + Canonical(s[1..])
  }

  /** Each character of the canonical name is the rewritten character at the same place. */
  lemma {:induction false} CanonicalAt(s: string, k: nat)
    requires k < |s|
    ensures Canonical(s)[k] == CanonicalChar(s[k])
    decreases k
  {
    if k > 0 {
      CanonicalAt(s[1..], k - 1);
    }
  }

  /** A string that agrees with the rewritten characters of `s` everywhere is Canonical(s). */
  lemma CanonicalByChar(s: string, t: string)
    requires |t| == |s|
    requires forall k :: 0 <= k < |s| ==> t[k] == CanonicalChar(s[k])
    ensures Canonical(s) == t
  {
    forall k | 0 <= k < |s|
      ensures Canonical(s)[k] == t[k]
    {
      CanonicalAt(s, k);
    }
  }

  /** The canonical name holds no upper-case letter and no dot-like character but '.'. */
  lemma CanonicalChars(s: string)
    ensures forall c :: c in Canonical(s) ==> !IsAsciiUpper(c) && (IsDotLike(c) ==> c == '.')
  {
    forall c | c in Canonical(s)
      ensures !IsAsciiUpper(c) && (IsDotLike(c) ==> c == '.')
    {
      var k :| 0 <= k < |s| && Canonical(s)[k] == c;
      CanonicalAt(s, k);
    }
  }

  /** The canonical host name with one trailing '.' removed, if there is one. */
  function Normalize(domain: string): string
  {
    var s := Canonical(domain);
    if |s| > 0 && s[|s| - 1] == '.' then s[..|s| - 1] else s
  }

  /** Normalising drops exactly one '.' from the end of the canonical name when it ends in
      one, and otherwise keeps the canonical name. */
  lemma NormalizeSpec(domain: string)
    ensures Normalize(domain) <= Canonical(domain)
    ensures Normalize(domain) == Canonical(domain) || Canonical(domain) == Normalize(domain) + "."
    ensures var c := Canonical(domain);
      (|c| > 0 && c[|c| - 1] == '.') <==> Normalize(domain) != c
  {
    var s := Canonical(domain);
    if |s| > 0 && s[|s| - 1] == '.' {
      assert s == s[..|s| - 1] + ".";
    }
  }

  /** The labels of a host name: normalised, then split on '.'. */
  function NormalizeAndSplit(domain: string): seq<string>
  {
    Split(Normalize(domain))
  }

  /** The labels joined again are a prefix of the normalised host name, so they are never
      longer than the host name. */
  lemma NormalizeAndSplitPrefix(domain: string)
    ensures Join(NormalizeAndSplit(domain)) <= Normalize(domain)
    ensures |Join(NormalizeAndSplit(domain))| <= |domain|
    ensures Join(NormalizeAndSplit(domain)) <= Canonical(domain)
  {
    SplitSpec(Normalize(domain));
    NormalizeSpec(domain);
    PrefixTrans(Join(NormalizeAndSplit(domain)), Normalize(domain), Canonical(domain));
  }

  /** No label holds a dot-like character or an upper-case letter. */
  lemma NormalizedLabels(domain: string)
    ensures var parts := NormalizeAndSplit(domain);
      forall j, c :: 0 <= j < |parts| && c in parts[j] ==> !IsDotLike(c) && !IsAsciiUpper(c)
  {
    var n := Normalize(domain);
    SplitChars(n);
    SplitSpec(n);
    NormalizedChars(domain);
  }

  /** The normalised host name holds no upper-case letter and no dot-like character other
      than '.'. */
  lemma NormalizedChars(domain: string)
    ensures forall c :: c in Normalize(domain) ==> !IsAsciiUpper(c) && (IsDotLike(c) ==> c == '.')
  {
    var n := Normalize(domain);
    NormalizeSpec(domain);
    CanonicalChars(domain);
    forall c | c in n
      ensures c in Canonical(domain)
    {
      var k :| 0 <= k < |n| && n[k] == c;
      assert Canonical(domain)[k] == c;
    }
  }

  // ---------------------------------------------------------------------------------------
  // Offsets

  /** The offset in the joined labels that joinIndex computes for a label index: the length
      of the first `index` labels joined, where index 0 counts as index 1, so it is the
      position of the '.' in front of label `index` for every index from 1 on. */
  function JoinIndex(parts: seq<string>, index: nat): (r: nat)
    requires 0 < |parts| && index <= |parts|
    decreases index
  {
    if index <= 1 then |parts[0]|
    else JoinIndex(parts, index - 1) + |parts[index - 1]| + 1
  }

  /** The offset is the length of the first `index` labels joined (at least one label). */
  lemma {:induction false} JoinIndexLength(parts: seq<string>, index: nat)
    requires 0 < |parts| && index <= |parts|
    ensures JoinIndex(parts, index) == |Join(parts[..Max(1, index)])|
    decreases index
  {
    if index <= 1 {
      assert parts[..1] == [parts[0]];
    } else {
      JoinIndexLength(parts, index - 1);
      JoinSplitAt(parts[..index], index - 1);
      assert parts[..index][..index - 1] == parts[..index - 1];
      assert parts[..index][index - 1..] == [parts[index - 1]];
    }
  }

  /** For a label index k inside the list, the offset holds the '.' in front of label k and
      everything after it is the ancestor name made of labels k onwards; past the last label
      the offset is the length of the whole joined name. */
  lemma JoinIndexLocatesSuffix(parts: seq<string>, k: nat)
    requires 1 <= k <= |parts|
    ensures k < |parts| ==>
      && JoinIndex(parts, k) < |Join(parts)|
      && Join(parts)[JoinIndex(parts, k)] == '.'
      && Join(parts)[JoinIndex(parts, k) + 1..] == Join(parts[k..])
    ensures k == |parts| ==> JoinIndex(parts, k) == |Join(parts)|
  {
    JoinIndexLength(parts, k);
    if k < |parts| {
      JoinSplitAt(parts, k);
    } else {
      assert parts[..k] == parts;
    }
  }

  /** Every offset joinIndex gives lies within the joined name. */
  lemma JoinIndexBound(parts: seq<string>, k: nat)
    requires 0 < |parts| && k <= |parts|
    ensures JoinIndex(parts, k) <= |Join(parts)|
    ensures Join(parts)[..JoinIndex(parts, k)] == Join(parts[..Max(1, k)])
  {
    JoinIndexLength(parts, k);
    JoinPrefix(parts, Max(1, k));
  }

  // ---------------------------------------------------------------------------------------
  // Rules

  /** Whether a name falls under a wildcard rule: the name has a '.', and the text after its
      first '.' is the name under the wildcard. */
  function MatchesWildcard(under: set<string>, name: string): (r: bool)
    ensures r <==> '.' in name && name[IndexOf(name, '.') + 1..] in under
  {
    var pieces := SplitOnce(name);
    if |pieces| == 2 then
      var i := |pieces[0]|;
      assert name[..i] == pieces[0];
      IndexOfUnique(name, '.', i);
      pieces[1] in under
    else
      false
  }

  /** The name made of the labels from index i on. */
  function Ancestor(parts: seq<string>, i: nat): string
    requires i <= |parts|
  {
    Join(parts[i..])
  }

  /** A shorter ancestor is a suffix of a longer one. */
  lemma AncestorSuffix(parts: seq<string>, b: nat, a: nat)
    requires b <= a <= |parts|
    ensures IsSuffix(Ancestor(parts, a), Ancestor(parts, b))
  {
    JoinTailSuffix(parts, b, a);
  }

  /** Whether some rule applies to the name. */
  predicate Matches(rules: Rules, name: string)
  {
    name in rules.exact || name in rules.excluded || MatchesWildcard(rules.under, name)
  }

  /** The label at which the public suffix starts once the ancestor at label i matched: a
      plain rule wins over an exception rule, which wins over a wildcard rule; an exception
      rule makes the parent of the matched name the suffix. */
  function SuffixStart(rules: Rules, parts: seq<string>, i: nat): (s: nat)
    requires i < |parts|
    ensures s == i || s == i + 1
    ensures s == i + 1 <==> Ancestor(parts, i) !in rules.exact && Ancestor(parts, i) in rules.excluded
  {
    var name := Ancestor(parts, i);
    if name in rules.exact then i
    else if name in rules.excluded then i + 1
    else i
  }

  /** The ancestor at label i is the longest one that some rule applies to. */
  predicate IsFirstMatch(rules: Rules, parts: seq<string>, i: nat)
  {
    && i < |parts|
    && Matches(rules, Ancestor(parts, i))
    && forall j :: 0 <= j < i ==> !Matches(rules, Ancestor(parts, j))
  }

  /** The ancestors tried from label `from` on, longest first: the first one that matches,
      or |parts| when none does. */
  function FirstMatch(rules: Rules, parts: seq<string>, from: nat): (m: nat)
    requires from <= |parts|
    ensures from <= m <= |parts|
    decreases |parts| - from
  {
    if from == |parts| || Matches(rules, Ancestor(parts, from)) then from
    else FirstMatch(rules, parts, from + 1)
  }

  /** The search stops at an ancestor that some rule applies to, or at the end, and no rule
      applies to any ancestor it passed. */
  lemma {:induction false} FirstMatchSpec(rules: Rules, parts: seq<string>, from: nat)
    requires from <= |parts|
    ensures var m := FirstMatch(rules, parts, from);
      && (m < |parts| ==> Matches(rules, Ancestor(parts, m)))
      && forall j :: from <= j < m ==> !Matches(rules, Ancestor(parts, j))
    decreases |parts| - from
  {
    if from < |parts| && !Matches(rules, Ancestor(parts, from)) {
      FirstMatchSpec(rules, parts, from + 1);
      assert FirstMatch(rules, parts, from) == FirstMatch(rules, parts, from + 1);
    }
  }

  /** Searching from the first label finds the longest matching ancestor, if there is one. */
  lemma FirstMatchFound(rules: Rules, parts: seq<string>)
    ensures var m := FirstMatch(rules, parts, 0);
      && (m < |parts| ==> IsFirstMatch(rules, parts, m))
      && (m == |parts| ==> forall j :: 0 <= j < |parts| ==> !Matches(rules, Ancestor(parts, j)))
  {
    FirstMatchSpec(rules, parts, 0);
  }

  /** The offset joinIndex gives for the label where the public suffix starts, or -1 when
      no rule applies to any ancestor of the name; never past the end of the host name. When
      that label is neither the first nor past the last, the offset is the separator in front
      of it (a '.' or, in the name as given, a dot-like character); for the first label it is
      the end of that label, and past the last label it is the end of the name. */
  function FindPublicSuffixIndex(rules: Rules, domain: string): (r: int)
    ensures -1 <= r <= |domain|
  {
    var parts := NormalizeAndSplit(domain);
    var m := FirstMatch(rules, parts, 0);
    if m == |parts| then -1
    else
      var s := SuffixStart(rules, parts, m);
      NormalizeAndSplitPrefix(domain);
      JoinIndexBound(parts, s);
      JoinIndex(parts, s)
  }

  /** -1 exactly when no rule applies to any ancestor; otherwise the offset that joinIndex
      gives for the label where the suffix of the longest matching ancestor starts. */
  lemma FindPublicSuffixIndexSpec(rules: Rules, domain: string)
    ensures var parts := NormalizeAndSplit(domain); var r := FindPublicSuffixIndex(rules, domain);
      r == -1 <==> forall i :: 0 <= i < |parts| ==> !Matches(rules, Ancestor(parts, i))
    ensures var parts := NormalizeAndSplit(domain); var r := FindPublicSuffixIndex(rules, domain);
      r != -1 ==> exists i :: IsFirstMatch(rules, parts, i) && r == JoinIndex(parts, SuffixStart(rules, parts, i))
  {
    FirstMatchFound(rules, NormalizeAndSplit(domain));
  }

  /** The first match is unique, so the offset is the one of that match. */
  lemma FindPublicSuffixIndexAt(rules: Rules, domain: string, i: nat)
    requires IsFirstMatch(rules, NormalizeAndSplit(domain), i)
    ensures var parts := NormalizeAndSplit(domain);
      FindPublicSuffixIndex(rules, domain) == JoinIndex(parts, SuffixStart(rules, parts, i))
  {
    FirstMatchIs(rules, NormalizeAndSplit(domain), i);
  }

  /** The first match is unique: the search finds exactly the longest matching ancestor. */
  lemma FirstMatchIs(rules: Rules, parts: seq<string>, i: nat)
    requires IsFirstMatch(rules, parts, i)
    ensures FirstMatch(rules, parts, 0) == i
  {
    FirstMatchSpec(rules, parts, 0);
    var m := FirstMatch(rules, parts, 0);
    assert !(m < i);
  }

  // ---------------------------------------------------------------------------------------
  // Public operations

  /** The host name without its public suffix; the host name itself when it is empty or no
      rule applies. */
  function StripPublicSuffix(rules: Rules, domain: string): (r: string)
    ensures r <= domain
    ensures |domain| == 0 ==> r == domain
    ensures FindPublicSuffixIndex(rules, domain) == -1 ==> r == domain
  {
    if |domain| == 0 then domain
    else
      var index := FindPublicSuffixIndex(rules, domain);
      if index == -1 then domain else domain[..index]
  }

  /** What stripping leaves, once normalised, is exactly the labels in front of the public
      suffix; when the whole name is the suffix (a plain or wildcard rule applies to the whole
      name) it is the first label, as joinIndex treats label index 0 like label index 1. */
  lemma StripLeavesLabelsBeforeSuffix(rules: Rules, domain: string, i: nat)
    requires |domain| > 0
    requires IsFirstMatch(rules, NormalizeAndSplit(domain), i)
    ensures var parts := NormalizeAndSplit(domain);
      Canonical(StripPublicSuffix(rules, domain)) == Join(parts[..Max(1, SuffixStart(rules, parts, i))])
  {
    var parts := NormalizeAndSplit(domain);
    var s := SuffixStart(rules, parts, i);
    var index := JoinIndex(parts, s);
    FindPublicSuffixIndexAt(rules, domain, i);
    StripAt(rules, domain, index);
    NormalizeAndSplitPrefix(domain);
    JoinIndexBound(parts, s);
    CanonicalCut(domain, Join(parts), index);
  }

  /** Where a suffix is found, stripping cuts the host name at its offset. */
  lemma StripAt(rules: Rules, domain: string, index: int)
    requires |domain| > 0 && index == FindPublicSuffixIndex(rules, domain) && index != -1
    ensures 0 <= index <= |domain| && StripPublicSuffix(rules, domain) == domain[..index]
  {
  }

  /** Cutting a host name and then normalising its characters gives the same text as cutting
      any prefix of its normalised characters at the same place. */
  lemma CanonicalCut(domain: string, joined: string, index: nat)
    requires joined <= Canonical(domain) && index <= |joined|
    ensures Canonical(domain[..index]) == joined[..index]
  {
    CanonicalPrefix(domain, index);
  }

  lemma PrefixTrans(a: string, b: string, c: string)
    requires a <= b && b <= c
    ensures a <= c
  {
  }

  /** Normalising characters commutes with taking a prefix. */
  lemma CanonicalPrefix(s: string, n: nat)
    requires n <= |s|
    ensures Canonical(s[..n]) == Canonical(s)[..n]
  {
    forall k | 0 <= k < n
      ensures Canonical(s)[..n][k] == CanonicalChar(s[..n][k])
    {
      CanonicalAt(s, k);
    }
    CanonicalByChar(s[..n], Canonical(s)[..n]);
  }

  /** The position among the normalised labels of the first label of the suffix text cut
      from the host name as given, looked up by first occurrence; -1 when it does not occur. */
  function SuffixLabelPosition(domain: string, index: nat): (p: int)
    requires index < |domain|
    ensures -1 <= p < |NormalizeAndSplit(domain)|
  {
    var publicSuffix := domain[index + 1..];
    var nextPartIndex := IndexOf(publicSuffix, '.');
    var firstPart := if nextPartIndex < 0 then publicSuffix else publicSuffix[..nextPartIndex];
    IndexOf(NormalizeAndSplit(domain), firstPart)
  }

  lemma SuffixLabelPositionOf(domain: string, index: nat, firstPart: string)
    requires index < |domain|
    requires var t := domain[index + 1..]; var n := IndexOf(t, '.');
      firstPart == if n < 0 then t else t[..n]
    ensures SuffixLabelPosition(domain, index) == IndexOf(NormalizeAndSplit(domain), firstPart)
  {
  }

  /** The public suffix with `additionalPartCount` labels in front of it, read from the
      normalised labels; "" when no rule applies. */
  function GetPublicSuffix(rules: Rules, domain: string, additionalPartCount: int): (r: Result<string>)
  {
    if additionalPartCount < 0 then Failure(IllegalArgumentException)
    else
      var index := FindPublicSuffixIndex(rules, domain);
      if index < 0 then Success("")
      else if index + 1 > |domain| then Failure(StringIndexOutOfBoundsException)
      else
        var parts := NormalizeAndSplit(domain);
        var returnedIndex := Max(0, SuffixLabelPosition(domain, index) - additionalPartCount);
        Success(Ancestor(parts, returnedIndex))
  }

  /** The outcomes of getPublicSuffix: IllegalArgumentException exactly for a negative
      count, "" when no rule applies, and StringIndexOutOfBoundsException exactly when the
      offset found is the end of the host name. */
  lemma GetPublicSuffixOutcome(rules: Rules, domain: string, k: int)
    ensures GetPublicSuffix(rules, domain, k) == Failure(IllegalArgumentException) <==> k < 0
    ensures k >= 0 && FindPublicSuffixIndex(rules, domain) == -1 ==> GetPublicSuffix(rules, domain, k) == Success("")
    ensures GetPublicSuffix(rules, domain, k) == Failure(StringIndexOutOfBoundsException)
      <==> k >= 0 && FindPublicSuffixIndex(rules, domain) == |domain|
  {
  }

  /** A found suffix is always returned as an ancestor name: the normalised labels from some
      label on, joined. */
  lemma GetPublicSuffixIsAncestor(rules: Rules, domain: string, k: int)
    requires GetPublicSuffix(rules, domain, k).Success? && FindPublicSuffixIndex(rules, domain) != -1
    ensures var parts := NormalizeAndSplit(domain);
      exists start :: 0 <= start < |parts| && GetPublicSuffix(rules, domain, k).value == Ancestor(parts, start)
  {
    var index := FindPublicSuffixIndex(rules, domain);
    assert k >= 0;
    assert 0 <= index < |domain|;
    var parts := NormalizeAndSplit(domain);
    var p := SuffixLabelPosition(domain, index);
    var start := Max(0, p - k);
    GetPublicSuffixValue(rules, domain, k, index, p);
    assert GetPublicSuffix(rules, domain, k).value == Ancestor(parts, start);
  }

  /** Asking for more labels never shortens the answer: the answer for fewer labels is a
      suffix of the answer for more. */
  lemma GetPublicSuffixMonotone(rules: Rules, domain: string, k1: int, k2: int)
    requires 0 <= k1 <= k2
    ensures GetPublicSuffix(rules, domain, k1).Success? <==> GetPublicSuffix(rules, domain, k2).Success?
    ensures var r1 := GetPublicSuffix(rules, domain, k1); var r2 := GetPublicSuffix(rules, domain, k2);
      r1.Success? ==> IsSuffix(r1.value, r2.value)
  {
    var index := FindPublicSuffixIndex(rules, domain);
    if 0 <= index < |domain| {
      GetPublicSuffixMonotoneFound(rules, domain, k1, k2);
    } else if index == -1 {
      assert GetPublicSuffix(rules, domain, k1) == Success("");
      assert GetPublicSuffix(rules, domain, k2) == Success("");
    } else {
      assert GetPublicSuffix(rules, domain, k1) == Failure(StringIndexOutOfBoundsException);
      assert GetPublicSuffix(rules, domain, k2) == Failure(StringIndexOutOfBoundsException);
    }
  }

  lemma GetPublicSuffixMonotoneFound(rules: Rules, domain: string, k1: int, k2: int)
    requires 0 <= k1 <= k2
    requires 0 <= FindPublicSuffixIndex(rules, domain) < |domain|
    ensures GetPublicSuffix(rules, domain, k1).Success? && GetPublicSuffix(rules, domain, k2).Success?
    ensures IsSuffix(GetPublicSuffix(rules, domain, k1).value, GetPublicSuffix(rules, domain, k2).value)
  {
    var index := FindPublicSuffixIndex(rules, domain);
    var parts := NormalizeAndSplit(domain);
    var p := SuffixLabelPosition(domain, index);
    GetPublicSuffixValue(rules, domain, k1, index, p);
    GetPublicSuffixValue(rules, domain, k2, index, p);
    AncestorSuffix(parts, Max(0, p - k2), Max(0, p - k1));
    SuffixOfResults(GetPublicSuffix(rules, domain, k1), GetPublicSuffix(rules, domain, k2),
      Ancestor(parts, Max(0, p - k1)), Ancestor(parts, Max(0, p - k2)));
  }

  /** Two successful answers holding the ancestor at s moved k1 and moved k2 >= k1 labels to
      the left: the first text is a suffix of the second. Stated over `Result` values so that
      callers need not unfold the answers themselves. */
  lemma AncestorResults(parts: seq<string>, s: nat, k1: int, k2: int, r1: Result<string>, r2: Result<string>)
    requires s <= |parts| && 0 <= k1 <= k2
    requires r1 == Success(Ancestor(parts, Max(0, s - k1))) && r2 == Success(Ancestor(parts, Max(0, s - k2)))
    ensures r1.Success? && r2.Success? && IsSuffix(r1.value, r2.value)
  {
    AncestorSuffix(parts, Max(0, s - k2), Max(0, s - k1));
  }

  /** Two successful answers whose texts are a suffix and a longer name. It moves the suffix fact
      from the texts to the `Result` values they were returned in. */
  lemma SuffixOfResults(r1: Result<string>, r2: Result<string>, a: string, b: string)
    requires r1 == Success(a) && r2 == Success(b) && IsSuffix(a, b)
    ensures r1.Success? && r2.Success? && IsSuffix(r1.value, r2.value)
  {
  }

  /** The answer when a suffix was found inside the host name: the labels from the position
      of the suffix's first label, moved `k` labels to the left but not past the first. */
  lemma GetPublicSuffixValue(rules: Rules, domain: string, k: int, index: int, p: int)
    requires k >= 0
    requires index == FindPublicSuffixIndex(rules, domain) && 0 <= index < |domain|
    requires p == SuffixLabelPosition(domain, index)
    ensures GetPublicSuffix(rules, domain, k) == Success(Ancestor(NormalizeAndSplit(domain), Max(0, p - k)))
  {
  }

  /** Once the extra labels cover every label in front of the position the suffix's first
      label was looked up at, the answer is the whole normalised host name. */
  lemma GetPublicSuffixWhole(rules: Rules, domain: string, k: int)
    requires 0 <= FindPublicSuffixIndex(rules, domain) < |domain|
    requires k >= 0 && k >= SuffixLabelPosition(domain, FindPublicSuffixIndex(rules, domain))
    ensures GetPublicSuffix(rules, domain, k) == Success(Join(NormalizeAndSplit(domain)))
  {
    var parts := NormalizeAndSplit(domain);
    assert parts[0..] == parts;
  }

  // ---------------------------------------------------------------------------------------
  // Normalisation round trip

  /** A label written in normal form: no dot-like character and no upper-case letter. */
  predicate IsCanonicalLabel(l: string)
  {
    forall c :: c in l ==> !IsDotLike(c) && !IsAsciiUpper(c)
  }

  /** An ancestor is its first label, a '.', and the next ancestor. */
  lemma AncestorStep(parts: seq<string>, i: nat)
    requires i + 1 < |parts|
    ensures Ancestor(parts, i) == parts[i] + "." + Ancestor(parts, i + 1)
  {
    assert parts[i..][1..] == parts[i + 1..];
  }

  lemma AncestorLast(parts: seq<string>)
    requires |parts| >= 1
    ensures Ancestor(parts, |parts| - 1) == parts[|parts| - 1]
  {
    assert parts[|parts| - 1..] == [parts[|parts| - 1]];
  }

  /** A label of lower-case ASCII letters is in normal form. */
  lemma LowerLettersCanonical(l: string)
    requires forall k :: 0 <= k < |l| ==> 'a' <= l[k] <= 'z'
    ensures IsCanonicalLabel(l)
  {
    forall c | c in l
      ensures !IsDotLike(c) && !IsAsciiUpper(c)
    {
      var k :| 0 <= k < |l| && l[k] == c;
    }
  }

  lemma CanonicalConcat(a: string, b: string)
    ensures Canonical(a + b) == Canonical(a) + Canonical(b)
  {
    var t := Canonical(a) + Canonical(b);
    forall k | 0 <= k < |a + b|
      ensures t[k] == CanonicalChar((a + b)[k])
    {
      if k < |a| {
        CanonicalAt(a, k);
      } else {
        CanonicalAt(b, k - |a|);
      }
    }
    CanonicalByChar(a + b, t);
  }

  /** A label in normal form is its own canonical form. */
  lemma CanonicalLabelFixed(l: string)
    requires IsCanonicalLabel(l)
    ensures Canonical(l) == l
  {
    forall k | 0 <= k < |l|
      ensures l[k] == CanonicalChar(l[k])
    {
      assert l[k] in l;
    }
    CanonicalByChar(l, l);
  }

  lemma {:induction false} CanonicalJoin(ps: seq<string>)
    requires forall j :: 0 <= j < |ps| ==> IsCanonicalLabel(ps[j])
    ensures Canonical(Join(ps)) == Join(ps)
    decreases |ps|
  {
    if |ps| == 1 {
      CanonicalLabelFixed(ps[0]);
    } else if |ps| >= 2 {
      CanonicalJoin(ps[1..]);
      CanonicalLabelFixed(ps[0]);
      CanonicalConcat(ps[0] + ".", Join(ps[1..]));
      CanonicalConcat(ps[0], ".");
      assert Canonical(".") == ".";
    }
  }

  /** A host name written as canonical labels, the last one non-empty, normalises and splits
      back into exactly those labels. */
  lemma NormalizeAndSplitJoin(ps: seq<string>)
    requires IsNormalName(ps)
    ensures NormalizeAndSplit(Join(ps)) == ps
  {
    NormalizeJoin(ps);
    forall j | 0 <= j < |ps|
      ensures '.' !in ps[j]
    {
      assert IsDotLike('.');
    }
    SplitJoin(ps);
  }

  /** Such a host name is already normalised. */
  lemma NormalizeJoin(ps: seq<string>)
    requires IsNormalName(ps)
    ensures Normalize(Join(ps)) == Join(ps)
  {
    JoinEndsInLabel(ps);
    CanonicalJoin(ps);
    NormalizeFixed(Join(ps));
  }

  /** Such a host name does not end in '.'. */
  lemma JoinEndsInLabel(ps: seq<string>)
    requires |ps| >= 1 && ps[|ps| - 1] != "" && IsCanonicalLabel(ps[|ps| - 1])
    ensures |Join(ps)| > 0 && Join(ps)[|Join(ps)| - 1] != '.'
  {
    var d := Join(ps);
    var last := ps[|ps| - 1];
    JoinEndsWithLast(ps);
    var c := last[|last| - 1];
    assert c in last;
    assert d[|d| - 1] == c;
    assert IsDotLike('.');
  }

  /** A canonical host name that does not end in '.' is its own normal form. */
  lemma NormalizeFixed(d: string)
    requires Canonical(d) == d && |d| > 0 && d[|d| - 1] != '.'
    ensures Normalize(d) == d
  {
  }

  /** A host name already in normal form: canonical labels, the last one non-empty. */
  predicate IsNormalName(ps: seq<string>)
  {
    && |ps| >= 1
    && ps[|ps| - 1] != ""
    && forall j :: 0 <= j < |ps| ==> IsCanonicalLabel(ps[j])
  }

  /** For a host name in normal form whose suffix starts after its first label, stripping
      leaves exactly the labels in front of the suffix. */
  lemma StripNormalName(rules: Rules, ps: seq<string>, i: nat)
    requires IsNormalName(ps) && IsFirstMatch(rules, ps, i) && SuffixStart(rules, ps, i) >= 1
    ensures StripPublicSuffix(rules, Join(ps)) == Join(ps[..SuffixStart(rules, ps, i)])
  {
    JoinEndsWithLast(ps);
    NormalNameIndex(rules, ps, i);
    JoinIndexBound(ps, SuffixStart(rules, ps, i));
  }

  /** The text after the '.' in front of label s starts with label s itself. */
  lemma FirstLabelOfAncestor(ps: seq<string>, s: nat)
    requires s < |ps| && '.' !in ps[s]
    ensures var t := Ancestor(ps, s); var n := IndexOf(t, '.');
      (if n < 0 then t else t[..n]) == ps[s]
  {
    var t := Ancestor(ps, s);
    if s + 1 < |ps| {
      JoinSplitAt(ps[s..], 1);
      assert ps[s..][..1] == [ps[s]];
      assert ps[s..][1..] == ps[s + 1..];
      assert t == ps[s] + ['.'] + Join(ps[s + 1..]);
      IndexOfAfterPrefix(ps[s], '.', Join(ps[s + 1..]));
    } else {
      assert ps[s..] == [ps[s]];
      IndexOfSpec(t, '.');
    }
  }

  /** For a host name in normal form whose suffix starts at label s >= 1, and whose label s
      does not occur earlier, getPublicSuffix returns the labels from s - k on (at most all). */
  lemma GetPublicSuffixNormalName(rules: Rules, ps: seq<string>, i: nat, k: int)
    requires IsNormalName(ps) && IsFirstMatch(rules, ps, i)
    requires 1 <= SuffixStart(rules, ps, i) < |ps|
    requires ps[SuffixStart(rules, ps, i)] !in ps[..SuffixStart(rules, ps, i)]
    requires k >= 0
    ensures GetPublicSuffix(rules, Join(ps), k) == Success(Ancestor(ps, Max(0, SuffixStart(rules, ps, i) - k)))
  {
    var s := SuffixStart(rules, ps, i);
    NormalNameAncestor(ps, Max(0, s - k));
    NormalNameSuffixPosition(rules, ps, i);
    SuffixValue(rules, ps, Join(ps), JoinIndex(ps, s), s, k);
  }

  /** getPublicSuffix on a name d whose offset and label position are known, read through
      labels ps that have the same ancestor at the position returned. */
  lemma SuffixValue(rules: Rules, ps: seq<string>, d: string, index: int, p: int, k: int)
    requires p < |ps| && k >= 0
    requires FindPublicSuffixIndex(rules, d) == index && 0 <= index < |d|
    requires SuffixLabelPosition(d, index) == p
    requires Ancestor(NormalizeAndSplit(d), Max(0, p - k)) == Ancestor(ps, Max(0, p - k))
    ensures GetPublicSuffix(rules, d, k) == Success(Ancestor(ps, Max(0, p - k)))
  {
    GetPublicSuffixValue(rules, d, k, index, p);
  }

  /** The ancestors of a host name in normal form are the ones of its own labels. */
  lemma NormalNameAncestor(ps: seq<string>, y: nat)
    requires IsNormalName(ps) && y <= |ps|
    ensures y <= |NormalizeAndSplit(Join(ps))| && Ancestor(NormalizeAndSplit(Join(ps)), y) == Ancestor(ps, y)
  {
    NormalizeAndSplitJoin(ps);
  }

  lemma NormalNameSuffixPosition(rules: Rules, ps: seq<string>, i: nat)
    requires IsNormalName(ps) && IsFirstMatch(rules, ps, i)
    requires 1 <= SuffixStart(rules, ps, i) < |ps|
    requires ps[SuffixStart(rules, ps, i)] !in ps[..SuffixStart(rules, ps, i)]
    ensures var index := JoinIndex(ps, SuffixStart(rules, ps, i));
      && FindPublicSuffixIndex(rules, Join(ps)) == index
      && index < |Join(ps)|
      && SuffixLabelPosition(Join(ps), index) == SuffixStart(rules, ps, i)
  {
    var s := SuffixStart(rules, ps, i);
    NormalNameIndex(rules, ps, i);
    SuffixFirstLabel(ps, s);
    IndexOfUnique(ps, ps[s], s);
  }

  /** For a host name in normal form, the longest matching ancestor among its own labels is
      also the one among the labels normalizeAndSplit gives back, with the same suffix. */
  lemma NormalNameMatch(rules: Rules, ps: seq<string>, i: nat)
    requires IsNormalName(ps) && IsFirstMatch(rules, ps, i)
    ensures IsFirstMatch(rules, NormalizeAndSplit(Join(ps)), i)
    ensures SuffixStart(rules, NormalizeAndSplit(Join(ps)), i) == SuffixStart(rules, ps, i)
  {
    NormalizeAndSplitJoin(ps);
  }

  /** For a host name in normal form, the offset found is the one of label SuffixStart of
      the longest matching ancestor among its own labels. */
  lemma NormalNameIndex(rules: Rules, ps: seq<string>, i: nat)
    requires IsNormalName(ps) && IsFirstMatch(rules, ps, i)
    ensures FindPublicSuffixIndex(rules, Join(ps)) == JoinIndex(ps, SuffixStart(rules, ps, i))
  {
    NormalizeAndSplitJoin(ps);
    FindPublicSuffixIndexAt(rules, Join(ps), i);
  }

  /** For a host name in normal form, the label getPublicSuffix looks up for the offset in
      front of label s is label s itself, found at its first occurrence among the labels. */
  lemma SuffixFirstLabel(ps: seq<string>, s: nat)
    requires IsNormalName(ps) && 1 <= s < |ps|
    ensures var index := JoinIndex(ps, s);
      && index < |Join(ps)|
      && SuffixLabelPosition(Join(ps), index) == IndexOf(ps, ps[s])
  {
    SuffixOffset(ps, s);
    SuffixLabelPositionAt(ps, s, JoinIndex(ps, s));
  }

  /** The text after the offset of label s is ancestor s. */
  lemma SuffixOffset(ps: seq<string>, s: nat)
    requires 1 <= s < |ps|
    ensures JoinIndex(ps, s) < |Join(ps)| && Join(ps)[JoinIndex(ps, s) + 1..] == Ancestor(ps, s)
  {
    JoinIndexLocatesSuffix(ps, s);
  }

  /** When the text after the offset is ancestor s of the labels, the label looked up is
      label s. */
  lemma SuffixLabelPositionAt(ps: seq<string>, s: nat, index: nat)
    requires IsNormalName(ps) && s < |ps|
    requires index < |Join(ps)| && Join(ps)[index + 1..] == Ancestor(ps, s)
    ensures SuffixLabelPosition(Join(ps), index) == IndexOf(ps, ps[s])
  {
    NormalizeAndSplitJoin(ps);
    NormalNameLabelHasNoDot(ps, s);
    FirstLabelOfAncestor(ps, s);
    SuffixLabelPositionOf(Join(ps), index, ps[s]);
  }

  /** A label of a host name in normal form holds no '.'. */
  lemma NormalNameLabelHasNoDot(ps: seq<string>, j: nat)
    requires IsNormalName(ps) && j < |ps|
    ensures '.' !in ps[j]
  {
    assert IsCanonicalLabel(ps[j]);
    assert IsDotLike('.');
  }

}

=== FILE: strings.dfy ===
/** The handful of Java string and list operations the public-suffix matcher relies on,
    with their exact Java behaviour at the edges:
    - `IndexOf` is String.indexOf(char) and List.indexOf(Object): first occurrence or -1;
    - `Join` is TextUtils.join(".", parts);
    - `Split` is String.split("\\.") (no limit: trailing empty pieces are dropped, and a
      string without any '.' comes back whole, so "" splits into [""]);
    - `SplitOnce` is String.split("\\.", 2) (at most two pieces, trailing empty piece kept).
 */
module Strings {

  /** Position of the first occurrence of `x` in `s`, or -1 when `x` does not occur. */
  function IndexOf<T(==)>(s: seq<T>, x: T): (r: int)
    ensures -1 <= r < |s|
  {
    IndexFromSpec(s, x, 0);
    IndexFrom(s, x, 0)
  }

  /** -1 exactly when `x` does not occur; otherwise a position holding `x` with no `x` in
      front of it. */
  lemma IndexOfSpec<T>(s: seq<T>, x: T)
    ensures IndexOf(s, x) == -1 <==> x !in s
    ensures IndexOf(s, x) != -1 ==> 0 <= IndexOf(s, x) < |s| && s[IndexOf(s, x)] == x && x !in s[..IndexOf(s, x)]
  {
    IndexFromSpec(s, x, 0);
  }

  /** Position of the first occurrence of `x` in `s` at or after `from`, or -1. */
  function IndexFrom<T(==)>(s: seq<T>, x: T, from: nat): int
    requires from <= |s|
    decreases |s| - from
  {
    if from == |s| then -1 else if s[from] == x then from else IndexFrom(s, x, from + 1)
  }

  /** -1 when `x` is nowhere from `from` on; otherwise the first position from `from` on
      that holds `x`. */
  lemma {:induction false} IndexFromSpec<T>(s: seq<T>, x: T, from: nat)
    requires from <= |s|
    ensures var r := IndexFrom(s, x, from);
      && (r == -1 <==> forall k :: from <= k < |s| ==> s[k] != x)
      && (r != -1 ==> from <= r < |s| && s[r] == x && forall k :: from <= k < r ==> s[k] != x)
    decreases |s| - from
  {
    if from < |s| && s[from] != x {
      IndexFromSpec(s, x, from + 1);
    }
  }

  /** The first occurrence of a separator sits right after a prefix that does not contain it. */
  lemma IndexOfAfterPrefix<T>(a: seq<T>, x: T, b: seq<T>)
    requires x !in a
    ensures IndexOf(a + [x] + b, x) == |a|
  {
    var s := a + [x] + b;
    var r := IndexOf(s, x);
    IndexOfSpec(s, x);
    assert s[|a|] == x;
    assert forall k :: 0 <= k < |a| ==> s[k] == a[k];
    assert forall k :: 0 <= k < r ==> s[..r][k] == s[k];
  }

  /** A position where `x` sits, with no `x` in front of it, is the first occurrence. */
  lemma IndexOfUnique<T>(s: seq<T>, x: T, i: nat)
    requires i < |s| && s[i] == x && x !in s[..i]
    ensures IndexOf(s, x) == i
  {
    var r := IndexOf(s, x);
    IndexOfSpec(s, x);
    assert forall k :: 0 <= k < i ==> s[..i][k] == s[k];
    assert forall k :: 0 <= k < r ==> s[..r][k] == s[k];
  }

  /** The labels with one '.' between each two neighbours. */
  function Join(parts: seq<string>): string
  {
    if |parts| == 0 then ""
    else if |parts| == 1 then parts[0]
    else parts[0] + "." + Join(parts[1..])
  }

  /** Every piece of `s` between two dots (or an end of `s`), empty pieces included. */
  function Pieces(s: string): seq<string>
    decreases |s|
  {
    var i := IndexOf(s, '.');
    if i == -1 then [s] else [s[..i]] + Pieces(s[i + 1..])
  }

  /** There is at least one piece, no piece holds a '.', and the pieces joined with '.' give
      `s` back. */
  lemma {:induction false} PiecesSpec(s: string)
    ensures |Pieces(s)| >= 1
    ensures forall j :: 0 <= j < |Pieces(s)| ==> '.' !in Pieces(s)[j]
    ensures Join(Pieces(s)) == s
    decreases |s|
  {
    var i := IndexOf(s, '.');
    IndexOfSpec(s, '.');
    if i != -1 {
      var tail := s[i + 1..];
      PiecesSpec(tail);
      PiecesAt(s, i);
      JoinCons(s[..i], Pieces(tail));
      CutAt(s, i);
    }
  }

  /** A label in front of a non-empty list joins with one '.' between them. */
  lemma JoinCons(a: string, rest: seq<string>)
    requires |rest| >= 1
    ensures Join([a] + rest) == a + "." + Join(rest)
  {
    assert ([a] + rest)[1..] == rest;
  }

  /** A string is the text before position `i`, the character there, and the text after. */
  lemma CutAt(s: string, i: nat)
    requires i < |s| && s[i] == '.'
    ensures s == s[..i] + "." + s[i + 1..]
  {
  }

  /** A character of a prefix is a character of the whole. */
  lemma InTake(s: string, n: nat, c: char)
    requires n <= |s| && c in s[..n]
    ensures c in s
  {
    var k :| 0 <= k < n && s[..n][k] == c;
    assert s[k] == c;
  }

  /** A character of a suffix is a character of the whole. */
  lemma InDrop(s: string, n: nat, c: char)
    requires n <= |s| && c in s[n..]
    ensures c in s
  {
    var k :| 0 <= k < |s| - n && s[n..][k] == c;
    assert s[n + k] == c;
  }

  /** Every character of every piece is a character of `s`. */
  lemma {:induction false} PiecesChars(s: string)
    ensures forall j, c :: 0 <= j < |Pieces(s)| && c in Pieces(s)[j] ==> c in s
    decreases |s|
  {
    var i := IndexOf(s, '.');
    if i != -1 {
      var tail := s[i + 1..];
      var rest := Pieces(tail);
      PiecesChars(tail);
      PiecesAt(s, i);
      forall j, c | 0 <= j < |Pieces(s)| && c in Pieces(s)[j]
        ensures c in s
      {
        if j == 0 {
          InTake(s, i, c);
        } else {
          assert c in rest[j - 1];
          InDrop(s, i + 1, c);
        }
      }
    }
  }

  /** `ps` with its run of trailing empty strings removed. */
  function DropTrailingEmpty(ps: seq<string>): seq<string>
    decreases |ps|
  {
    if |ps| > 0 && ps[|ps| - 1] == "" then DropTrailingEmpty(ps[..|ps| - 1]) else ps
  }

  /** What is left is a prefix that does not end in an empty string, and everything dropped
      is empty. */
  lemma {:induction false} DropTrailingEmptySpec(ps: seq<string>)
    ensures DropTrailingEmpty(ps) <= ps
    ensures var r := DropTrailingEmpty(ps); |r| == 0 || r[|r| - 1] != ""
    ensures forall j :: |DropTrailingEmpty(ps)| <= j < |ps| ==> ps[j] == ""
    decreases |ps|
  {
    if |ps| > 0 && ps[|ps| - 1] == "" {
      DropTrailingEmptySpec(ps[..|ps| - 1]);
    }
  }

  /** String.split on '.' without a limit. */
  function Split(s: string): seq<string>
  {
    if '.' !in s then [s] else DropTrailingEmpty(Pieces(s))
  }

  /** No piece holds a '.'; joined with '.' they give a prefix of `s` whose remainder is all
      '.' (only trailing empty pieces are lost); a string without '.' comes back whole;
      otherwise the last piece, if any, is not empty. */
  lemma SplitSpec(s: string)
    ensures forall j :: 0 <= j < |Split(s)| ==> '.' !in Split(s)[j]
    ensures Join(Split(s)) <= s
    ensures forall k :: |Join(Split(s))| <= k < |s| ==> s[k] == '.'
    ensures '.' !in s ==> Split(s) == [s]
    ensures '.' in s ==> |Split(s)| == 0 || Split(s)[|Split(s)| - 1] != ""
  {
    if '.' in s {
      PiecesSpec(s);
      DropTrailingEmptySpec(Pieces(s));
      JoinDropTrailingEmpty(Pieces(s));
    }
  }

  /** Every character of a split piece is a character of the string split. */
  lemma SplitChars(s: string)
    ensures forall j, c :: 0 <= j < |Split(s)| && c in Split(s)[j] ==> c in s
  {
    if '.' in s {
      PiecesChars(s);
      DropTrailingEmptySpec(Pieces(s));
    }
  }

  /** String.split on '.' with limit 2: the text before the first '.' and everything after it. */
  function SplitOnce(s: string): (r: seq<string>)
    ensures |r| == 1 || |r| == 2
    ensures |r| == 2 <==> '.' in s
    ensures |r| == 1 ==> r[0] == s
    ensures |r| == 2 ==> '.' !in r[0] && s == r[0] + "." + r[1]
  {
    var i := IndexOf(s, '.');
    IndexOfSpec(s, '.');
    if i == -1 then [s]
    else
      assert s == s[..i] + "." + s[i + 1..];
      [s[..i], s[i + 1..]]
  }

  /** Joining splits at every label boundary: the labels in front, a '.', the labels behind. */
  lemma {:induction false} JoinSplitAt(ps: seq<string>, k: nat)
    requires 1 <= k < |ps|
    ensures Join(ps) == Join(ps[..k]) + "." + Join(ps[k..])
    decreases k
  {
    if k == 1 {
      assert ps[..1] == [ps[0]];
      assert ps[1..] == ps[k..];
    } else {
      JoinSplitAt(ps[1..], k - 1);
      assert ps[1..][..k - 1] == ps[1..k];
      assert ps[1..][k - 1..] == ps[k..];
      assert ps[..k][1..] == ps[1..k];
    }
  }

  /** The joined first `t` labels are a prefix of the joined whole. */
  lemma JoinPrefix(ps: seq<string>, t: nat)
    requires 1 <= t <= |ps|
    ensures Join(ps[..t]) <= Join(ps)
  {
    if t < |ps| {
      JoinSplitAt(ps, t);
    } else {
      assert ps[..t] == ps;
    }
  }

  /** `a` is a suffix of `b`. */
  predicate IsSuffix<T(==)>(a: seq<T>, b: seq<T>)
  {
    |a| <= |b| && b[|b| - |a|..] == a
  }

  /** The joined labels from `a` on are a suffix of the joined labels from any `b <= a` on. */
  lemma JoinTailSuffix(ps: seq<string>, b: nat, a: nat)
    requires b <= a <= |ps|
    ensures IsSuffix(Join(ps[a..]), Join(ps[b..]))
  {
    if a == |ps| {
      assert ps[a..] == [];
    } else if b < a {
      var t := ps[b..];
      JoinSplitAt(t, a - b);
      assert t[a - b..] == ps[a..];
    }
  }

  /** A joined name ends with its last label. */
  lemma JoinEndsWithLast(ps: seq<string>)
    requires |ps| >= 1
    ensures IsSuffix(ps[|ps| - 1], Join(ps))
  {
    if |ps| >= 2 {
      JoinSplitLast(ps);
      SuffixOfConcat(Join(ps[..|ps| - 1]) + ".", ps[|ps| - 1]);
    } else {
      assert ps[0][0..] == ps[0];
    }
  }

  /** A joined name is its front labels joined, a '.', and its last label. */
  lemma {:induction false} JoinSplitLast(ps: seq<string>)
    requires |ps| >= 2
    ensures Join(ps) == Join(ps[..|ps| - 1]) + "." + ps[|ps| - 1]
    decreases |ps|
  {
    var front := ps[..|ps| - 1];
    if |ps| > 2 {
      JoinSplitLast(ps[1..]);
      assert ps[1..][..|ps| - 2] == front[1..];
    }
  }

  /** The second half of a concatenation is a suffix of it. */
  lemma SuffixOfConcat<T>(a: seq<T>, b: seq<T>)
    ensures IsSuffix(b, a + b)
  {
    assert (a + b)[|a|..] == b;
  }

  /** Dropping trailing empty labels leaves a prefix of the joined string, and what it
      loses is the '.' in front of each dropped label. */
  lemma {:induction false} JoinDropTrailingEmpty(ps: seq<string>)
    ensures Join(DropTrailingEmpty(ps)) <= Join(ps)
    ensures forall k :: |Join(DropTrailingEmpty(ps))| <= k < |Join(ps)| ==> Join(ps)[k] == '.'
    decreases |ps|
  {
    if |ps| > 0 && ps[|ps| - 1] == "" {
      var init := ps[..|ps| - 1];
      JoinDropTrailingEmpty(init);
      if |ps| >= 2 {
        JoinSplitLast(ps);
        assert Join(ps) == Join(init) + ".";
      }
    }
  }

  /** Splitting the pieces of a joined label list gives the labels back. */
  lemma {:induction false} PiecesJoin(ps: seq<string>)
    requires |ps| >= 1
    requires forall j :: 0 <= j < |ps| ==> '.' !in ps[j]
    ensures Pieces(Join(ps)) == ps
    decreases |ps|
  {
    if |ps| >= 2 {
      var rest := ps[1..];
      var s := Join(ps);
      var i := |ps[0]|;
      assert s == ps[0] + ['.'] + Join(rest);
      assert IndexOf(s, '.') == i by {
        IndexOfAfterPrefix(ps[0], '.', Join(rest));
      }
      assert s[..i] == ps[0];
      assert s[i + 1..] == Join(rest);
      PiecesJoin(rest);
      PiecesAt(s, i);
      assert ps == [ps[0]] + rest;
    } else {
      PiecesNoDot(ps[0]);
    }
  }

  /** A string without '.' is one piece. */
  lemma PiecesNoDot(s: string)
    requires '.' !in s
    ensures Pieces(s) == [s]
  {
    IndexOfSpec(s, '.');
  }

  /** Past the first '.', the pieces continue with the pieces of the rest. */
  lemma PiecesAt(s: string, i: nat)
    requires i == IndexOf(s, '.')
    ensures Pieces(s) == [s[..i]] + Pieces(s[i + 1..])
  {
  }

  /** Split inverts Join on label lists whose labels contain no '.' and do not end in an
      empty label (Split drops those), except the single label list [""]. */
  lemma SplitJoin(ps: seq<string>)
    requires |ps| >= 1
    requires forall j :: 0 <= j < |ps| ==> '.' !in ps[j]
    requires |ps| == 1 || ps[|ps| - 1] != ""
    ensures Split(Join(ps)) == ps
  {
    if |ps| >= 2 {
      PiecesJoin(ps);
      JoinSplitAt(ps, 1);
      assert Join(ps)[|Join(ps[..1])|] == '.';
    }
  }
}
